=== FILE: README.md ===
# python-log-viewer in Dafny

A model of the core of python-log-viewer, a small library that serves the
log files under one directory through a web page. The model covers four
parts of the library:

- **The log directory** (`LogDirectory`, over `PosixPath`).
  - The root is made absolute once, when the directory is constructed.
  - Client-supplied names are resolved by `_safe_resolve`. It normalises the name, rejects `..` and absolute names, requires the canonical path to lie textually below the canonical root, and requires a regular file.
  - Deleting and truncating a file go through that resolution.
  - Listing returns every regular file below the root, sorted by relative name.
  - The filesystem is a map from path texts to nodes. A file counts as below the root when its path text lies below the root's; the map is not required to hold the directories in between.
  - `os.path.realpath` is a function the caller supplies, so symbolic links are whatever that function says they are.
- **The reader** (`LogReader`, over `Utf8` and `Text`).
  - A file's bytes are decoded as strict UTF-8, with universal newlines, and cut into lines as `readlines` does.
  - Each line is right-stripped.
  - Lines are grouped into entries: a line that starts with a digit or a level keyword opens an entry, and any other line continues the previous one.
  - Entries are filtered by level (upper-cased, as a substring) and by search text (case-insensitive substring).
  - The result is counted, and the newest `lines` entries are returned.
  - Failures are modelled: an unresolvable name gives the "Invalid or missing file" error, and an undecodable file gives the single "Error reading log file" line.
- **Basic authentication** (`Auth`, over `Base64` and `Utf8`).
  - `decode_basic_auth` requires the `Basic ` prefix. It then decodes base 64 and UTF-8 and splits at the first colon.
  - Every failure is `None`.
  - `check_credentials` accepts exactly the expected pair. It raises `TypeError` when `secrets.compare_digest` meets non-ASCII text.
- **The page** (`HtmlRender` over `Template`, and `ViewerScript`).
  - `render_html` selects a refresh interval and a line limit, then runs its fifteen `str.replace` calls over the page template.
  - The model proves those replace calls equal a single-pass substitution (`Template.Fill`) of the page's `{{NAME}}` marks, for any template in which every `{{` opens a mark.
  - Three helpers of the page's script are modelled: `detectLevel`, `getFileFromURL`, and the folder split of `fetchFiles`.

Two behaviours of the code are worth knowing:

- The module docstring of `_html.py` calls `{{BASE_URL}}` the single placeholder. The code replaces fifteen marks, and the model follows the code.
- `render_html` has marks for refresh intervals 1000 and 3000 ms, but the page's refresh menu (`src/python_log_viewer/_html.py:430-434`) offers only 5000, 10000, 30000, 60000 and 0. `HtmlRender.RefreshOptionSelected` shows that a 1000 or 3000 ms timer puts `selected` only on the `REFRESH_1000` or `REFRESH_3000` mark, which the menu does not contain. The template text itself is not part of this model, so the consequence that the page shows no option selected is not proved.

## Model

| member | source | states |
|---|---|---|
| LogDirectory.MakeLogDir | src/python_log_viewer/core.py:32-33 | the root of a directory is absolute, whatever path it is constructed from |
| PosixPath.InitialSlashes | src/python_log_viewer/core.py:66 | `normpath` keeps one or two leading slashes, and keeps some exactly when the path is absolute |
| PosixPath.ComponentsShape | src/python_log_viewer/core.py:66 | the components `normpath` keeps are non-empty, not `.` and slash-free; in an absolute path none is `..`; in a relative path the `..` components form a leading run |
| PosixPath.NormPath | src/python_log_viewer/core.py:66 | `normpath` never returns the empty path, and never turns an absolute name relative or the reverse |
| PosixPath.JoinPath | src/python_log_viewer/core.py:69 | joining with an absolute name gives that name; otherwise the result is the base followed by the name, and one slash is added between them exactly when the base is non-empty and does not end in one; the result is absolute when either part is |
| PosixPath.AbsPath | src/python_log_viewer/core.py:33 | with an absolute working directory the result is absolute, and an absolute path is only normalised |
| PosixPath.NormalizedRelativeHasNoParent | src/python_log_viewer/core.py:66-68 | a name that passes the `..` and `isabs` checks normalises to `.` or to clean components with no `..`, so the start-with-`..` test is enough to stop climbing out |
| LogDirectory.SafeResolve | src/python_log_viewer/core.py:61-74 | the result is present exactly when all four checks pass; it is then the canonical path of an existing regular file that textually extends the canonical root |
| LogDirectory.ResolvedCandidateBelowRoot | src/python_log_viewer/core.py:66-69 | before any filesystem call, an accepted name is joined below the root as clean components none of which is `..` |
| LogDirectory.PrefixCheckIsTextual | src/python_log_viewer/core.py:69-71 | the containment check compares text: with root `/var/log`, a link that leads into `/var/log2` is accepted |
| LogDirectory.DeleteFile | src/python_log_viewer/core.py:80-86 | an unresolvable name fails and changes nothing; a resolvable one succeeds and removes exactly that file |
| LogDirectory.ClearFile | src/python_log_viewer/core.py:88-94 | an unresolvable name fails and changes nothing; a resolvable one succeeds, empties exactly that file and keeps every path |
| LogDirectory.InsertByName | src/python_log_viewer/core.py:54 | inserting a new name keeps the list sorted by name and adds exactly that record |
| StringOrder.LessTotal | src/python_log_viewer/core.py:54 | Python's string order is total on distinct names, so sorting by name is well defined |
| StringOrder.LessTransitive | src/python_log_viewer/core.py:54 | Python's string order is transitive |
| LogDirectory.ListFiles | src/python_log_viewer/core.py:39-55 | no root directory gives an empty list; otherwise the names listed are exactly the regular files below the root, each record names an existing file with its size, and the list is sorted by name |
| LogDirectory.DeleteUnlists | src/python_log_viewer/core.py:80-86 | after a delete, the deleted file is no longer listed and every other listing survives |
| LogDirectory.ClearKeepsListing | src/python_log_viewer/core.py:88-94 | clearing a file changes no listed name |
| Utf8.DecodeEncode | src/python_log_viewer/core.py:132 | strict UTF-8 decoding inverts encoding for every text |
| Utf8.EncodeDecode | src/python_log_viewer/core.py:132 | whatever decodes re-encodes to the same bytes, so the decoder accepts only canonical encodings |
| LogReader.TranslateNewlines | src/python_log_viewer/core.py:132 | after universal-newline translation no carriage return is left, and text without a carriage return is unchanged |
| LogReader.TranslatePlainPrefix | src/python_log_viewer/core.py:132 | a stretch without carriage returns passes through untouched and translation continues after it |
| LogReader.TranslateCrLf | src/python_log_viewer/core.py:132 | a `\r\n` pair reads as a single newline |
| LogReader.TranslateLoneCr | src/python_log_viewer/core.py:132 | a `\r` not followed by `\n` reads as a newline |
| LogReader.ReadText | src/python_log_viewer/core.py:131-135 | reading fails exactly when the bytes are not UTF-8; the text read has no carriage return, and is the decoded text itself when that has none |
| LogReader.ReadTextOfEncoding | src/python_log_viewer/core.py:131-133 | text without carriage returns, written as UTF-8, reads back as itself |
| Utf8.Decode | src/python_log_viewer/core.py:132 | a decoded text has no more characters than the bytes it came from |
| LogReader.ReadLines | src/python_log_viewer/core.py:133 | the lines concatenate back to the text; no line is empty; a newline can only end a line, and every line but the last ends with one |
| Text.RStrip | src/python_log_viewer/core.py:140 | the result is a prefix of the line that ends in non-whitespace, and everything removed is whitespace |
| LogReader.StrippedLineHasNoNewline | src/python_log_viewer/core.py:140 | a line read from a file carries no newline once stripped |
| Text.FirstToken | src/python_log_viewer/core.py:143 | the token is whitespace-free, follows only whitespace and ends at whitespace or the end of the line; a line with any non-whitespace has a non-empty first token |
| Text.FirstTokenUnique | src/python_log_viewer/core.py:143 | `split()[0]` is the one whitespace-free token that follows only whitespace and ends at whitespace or the end of the line |
| LogReader.EntryStartByToken | src/python_log_viewer/core.py:141-145 | a stripped line opens an entry exactly when it starts with a digit or its first token is one of the five level keywords |
| LogReader.AddLineShape | src/python_log_viewer/core.py:141-149 | a line adds an entry exactly when it opens one or there is no entry yet, and only the last entry can change |
| LogReader.AddLineJoin | src/python_log_viewer/core.py:141-149 | each turn of the loop adds the line, after a newline, to the end of the entries' joined text |
| LogReader.Group | src/python_log_viewer/core.py:137-149 | grouping yields no more entries than lines, and none exactly when there are no lines |
| LogReader.GroupEntries | src/python_log_viewer/core.py:137-149 | the in-place loop over raw lines produces the grouping of the stripped lines |
| LogReader.GroupRoundTrip | src/python_log_viewer/core.py:137-149 | grouping loses and adds nothing: the entries joined with newlines equal the stripped lines joined with newlines |
| LogReader.EntriesOpenWithStart | src/python_log_viewer/core.py:139-149 | every entry begins with one of the lines, and every entry after the first begins with an entry-start line |
| LogReader.GroupIsBlocking | src/python_log_viewer/core.py:137-149 | the entries are the newline-joined blocks of a cut of the lines into runs, each opened by a start line (except perhaps the first) and containing no other start line |
| LogReader.EntriesSplitBack | src/python_log_viewer/core.py:131-149 | for a file's text, splitting each entry at its newlines gives back exactly the run of stripped lines it was built from |
| LogReader.Filter | src/python_log_viewer/core.py:154 | a list comprehension keeps, in order, exactly the elements that pass its test, each as many times as it occurs |
| LogReader.LevelIgnoresCase | src/python_log_viewer/core.py:152-154 | the level test upper-cases the level, so a level asked in lower case matches the same entries |
| LogReader.SearchIgnoresCase | src/python_log_viewer/core.py:157-159 | the search ignores case on both sides, and finds any text the entry holds as written |
| LogReader.LevelFilter | src/python_log_viewer/core.py:151-154 | an empty level keeps every entry; otherwise the entries holding the upper-cased level are kept, in order and with their multiplicities |
| LogReader.SearchFilter | src/python_log_viewer/core.py:156-159 | an empty search keeps every entry; otherwise the entries holding the search text, case ignored, are kept, in order and with their multiplicities |
| LogReader.FilterFilter | src/python_log_viewer/core.py:151-159 | two filters in a row keep what passes both tests |
| LogReader.FiltersIntersect | src/python_log_viewer/core.py:151-159 | the level and search filters together keep exactly the entries that pass both, whichever runs first, and an empty level or search lets everything through |
| LogReader.TakeLast | src/python_log_viewer/core.py:161-163 | a positive limit below the count keeps that many entries; otherwise all are kept; what is kept is always the newest end of the list |
| LogReader.ReadData | src/python_log_viewer/core.py:131-165 | an undecodable file gives one error line, total 0 and no error key; otherwise the total counts every matching entry and the lines are the newest of them, as many as the limit allows |
| LogReader.ReadDataSelects | src/python_log_viewer/core.py:137-165 | every line returned is a whole entry of the file that passes both filters |
| LogReader.Read | src/python_log_viewer/core.py:127-135 | the error key is present exactly when the name does not resolve, and then nothing else is returned; otherwise the resolved file's contents are read |
| LogReader.ReadAfterClear | src/python_log_viewer/core.py:88-94 | reading a file after clearing it returns no lines, total 0 and no error |
| LogReader.ReadAfterDelete | src/python_log_viewer/core.py:80-86 | reading a file after deleting it reports it invalid or missing |
| Base64.Decode | src/python_log_viewer/auth.py:20 | decoding succeeds only on whole four-character quanta, and gives at most three bytes per quantum |
| Base64.DecodeEncode | src/python_log_viewer/auth.py:20 | base 64 decoding inverts encoding for every byte string |
| Auth.SplitCredentials | src/python_log_viewer/auth.py:21 | the split fails exactly when there is no colon; otherwise the user name has no colon and user name, colon and password rebuild the text |
| Auth.DecodeBasicAuth | src/python_log_viewer/auth.py:12-24 | a header without the exact `Basic ` prefix is refused; a header decodes exactly when its payload is base 64 of UTF-8 text containing a colon, and then to the text's split at its first colon |
| Auth.DecodeBasicHeader | src/python_log_viewer/auth.py:12-24 | a header built from a colon-free user name and any password decodes to exactly that pair |
| Auth.CompareDigest | src/python_log_viewer/auth.py:37-39 | `compare_digest` on two strings raises `TypeError` exactly when either holds a non-ASCII character, and otherwise tells whether they are equal |
| Auth.CheckCredentials | src/python_log_viewer/auth.py:27-39 | a header that does not decode fails; the check passes exactly when the header decodes to the expected pair and that pair is ASCII; it raises `TypeError` exactly when the user names meet non-ASCII text, or when they are equal and the passwords meet non-ASCII text |
| Auth.CheckBasicHeader | src/python_log_viewer/auth.py:27-39 | a client header passes the check exactly for its own credentials when they are ASCII; ASCII on all sides never raises; a non-ASCII user name always raises |
| Text.IntToStrRoundTrip | src/python_log_viewer/_html.py:909-911 | `str(n)` can be read back to n |
| Text.IntToStrInjective | src/python_log_viewer/_html.py:916-921 | two numbers render to the same decimal text exactly when they are equal, so comparing texts compares numbers |
| HtmlRender.SelectedRefresh | src/python_log_viewer/_html.py:909 | the selected interval text is the decimal text of the timer when auto-refresh is on and of 0 otherwise |
| HtmlRender.SelectedLines | src/python_log_viewer/_html.py:910-913 | the selected line limit is always one of the supported texts: the default's text when that is supported, 100 otherwise |
| Template.ReplaceAll | src/python_log_viewer/_html.py:918 | `str.replace` leaves text without the pattern unchanged |
| Template.HoleName | src/python_log_viewer/_html.py:917 | a mark at the front of a text is read as `{{`, a name, `}}` |
| Template.PlaceholderIsHole | src/python_log_viewer/_html.py:917 | a mark built from a name reads back as that name, whatever follows it |
| Template.ReplaceFill | src/python_log_viewer/_html.py:918 | on a well-formed template, replacing a mark not yet assigned equals assigning it in the single-pass substitution, provided the values assigned so far contain no `{` |
| Template.FillRemoves | src/python_log_viewer/_html.py:918 | once a name is assigned a value without `{`, its mark is gone from the page |
| Template.AssignLookup | src/python_log_viewer/_html.py:915-925 | with distinct names, each name receives its own pair's value and no other name changes |
| Template.ReplaceSeqIsFill | src/python_log_viewer/_html.py:915-925 | a run of replace calls with distinct names on a well-formed template is the single-pass substitution of all of them |
| HtmlRender.Substitutions | src/python_log_viewer/_html.py:915-925 | fifteen replace calls are made; the twelve option marks receive `selected` or nothing, and the last call puts the base URL without trailing slashes in the `BASE_URL` mark |
| HtmlRender.RenderHtml | src/python_log_viewer/_html.py:915-927 | a template without `{{` comes back unchanged |
| Template.ReplaceSeqWithoutMarks | src/python_log_viewer/_html.py:915-925 | replace calls for `{{NAME}}` marks leave a text without `{{` unchanged |
| HtmlRender.MarkNamesDistinct | src/python_log_viewer/_html.py:916-925 | the fifteen mark names are distinct |
| HtmlRender.SubstitutionsShape | src/python_log_viewer/_html.py:915-925 | the replace calls name the fifteen marks, in order, and every value before the last contains no `{` |
| HtmlRender.RenderIsFill | src/python_log_viewer/_html.py:915-927 | on a well-formed template, `render_html` is the single-pass substitution of its fifteen marks |
| HtmlRender.AssignmentValues | src/python_log_viewer/_html.py:909-925 | each refresh option is selected exactly when its interval is the shown one, each line option exactly when its limit is the shown one; the flags become `checked` and `colorize`; the base URL loses its trailing slashes |
| HtmlRender.RefreshOptionSelected | src/python_log_viewer/_html.py:909-918 | an interval among the choices selects its own option and no other; any other interval selects none |
| HtmlRender.OneLinesOptionSelected | src/python_log_viewer/_html.py:910-921 | exactly one line-limit option is selected, whatever default is asked for |
| HtmlRender.RenderLeavesNoMark | src/python_log_viewer/_html.py:915-927 | when the base URL has no `{`, no substituted mark is left in the rendered page |
| HtmlRender.DefaultsSelect | src/python_log_viewer/_html.py:882-889 | with the default arguments the 5-second refresh and the last-100 option are selected, auto-scroll is checked, colouring is on and the base URL is empty |
| Text.TrimSlashes | src/python_log_viewer/_html.py:925 | the result is a prefix with no trailing slash, and only slashes were removed |
| ViewerScript.DetectLevel | src/python_log_viewer/_html.py:556-562 | the level is the first of ERROR, WARNING, DEBUG, INFO that the line carries followed by a colon or space; it is empty exactly when the line carries none |
| ViewerScript.ColouredLinePassesFilter | src/python_log_viewer/_html.py:556-562 | a line the page colours with a level is kept by the reader's filter for that level |
| ViewerScript.FileFromUrl | src/python_log_viewer/_html.py:533-541 | a non-empty result is what follows the trimmed base and a slash; a path outside the base gives nothing |
| ViewerScript.FileFromUrlIsRemainder | src/python_log_viewer/_html.py:533-541 | the two early returns change nothing: the result is exactly the remainder after the base and a slash |
| ViewerScript.FileFromUrlRoundTrip | src/python_log_viewer/_html.py:533-541 | the page URL built from the base and a file name gives back that name, whatever trailing slashes the base has |
| ViewerScript.SplitFolder | src/python_log_viewer/_html.py:610-612 | the file part has no slash; a name with a slash is folder, slash, file; a name without one is in the top folder |
| ViewerScript.SplitFolderJoin | src/python_log_viewer/_html.py:610-612 | a slash-free file name under any folder is shown under that folder |
| SplitJoin.SplitOnJoin | src/python_log_viewer/core.py:147 | splitting newline-joined pieces that contain no newline gives back the pieces |

## Left out

- Modification times: `LogFileInfo.modified` and `os.stat`'s clock are not modelled. A record carries the relative name and the size.
- `os.walk`, symbolic-link following in `isfile`, and the order in which directories are visited are not modelled. The filesystem is a flat map of path texts, and `realpath` is a parameter. The listing is specified by its result, which is sorted by name whatever the walk order.
- File names whose bytes are not UTF-8 cannot be represented. Python's `os.walk` keeps them as `str` values with surrogate escapes (`b"caf\xe9.log"` becomes `"caf\udce9.log"`), and `list_files` would report them; Dafny strings hold Unicode scalar values only, so the filesystem map has no key for such a name.
- The shape of a real directory tree is not enforced: the filesystem map may hold a file whose parent directory is missing or is itself a file, and the listing would report it, where `os.walk` could not reach it. Every lemma holds for any map, so it holds for the maps a real tree gives.
- File I/O errors other than invalid UTF-8 are not modelled (permissions, a file vanishing between the check and `open`, and the like).
- Framework adapters (Django, Flask, FastAPI), HTTP routing, and the page's CSS and remaining script are not modelled.
- The page template's text is not transcribed. Rendering is proved for any template in which every `{{` opens a `{{NAME}}` mark. The library's template is of that form.
- LogReader.ReadData: the error line carries a fixed text in place of the text of Python's exception.
- Base64.Decode: accepts padded text in whole four-character quanta, with padding only in the last one. Python's `b64decode` also discards characters outside the alphabet, and stops at the first complete padded quantum ignoring what follows; the model refuses both. Like Python, it ignores non-zero bits under the padding (`YR==` gives `a`).
- Text.Upper: maps only ASCII letters. Python's `str.upper` also maps other scripts.
- Text.Lower: maps only ASCII letters, for the same reason.
- Text.IsDigit is restricted to the ASCII digits. Python's `isdigit` also accepts other Unicode digits.
- ViewerScript.FileFromUrl: does not apply `decodeURIComponent`. It returns the still-encoded remainder of the path.
- Auth.CompareDigest: the constant-time behaviour of `secrets.compare_digest` is not modelled; only its result and its `TypeError` on non-ASCII strings are.
- Template.ReplaceAll: requires a non-empty pattern. `render_html` never replaces an empty one.
- LogDirectory.MakeLogDir: takes the working directory as a parameter in place of reading it from the process.

=== FILE: auth.dfy ===
/**
 * HTTP Basic credential decoding and checking (`decode_basic_auth`,
 * `check_credentials`). The header carries `Basic ` followed by the base 64
 * encoding (section 4 of RFC 4648) of the UTF-8 bytes of the `user-pass`
 * text of section 2 of RFC 7617: the user-id, a colon, the password.
 */
module Auth {
  import opened Basics
  import opened Text
  import Base64
  import Utf8

  /** The exact, case-sensitive scheme prefix the header must start with. */
  const Scheme: string := "Basic "

  datatype Credentials = Credentials(username: string, password: string)

  /** The text inside the header payload: base 64, then UTF-8. */
  function PayloadText(payload: string): Option<string> {
    match Base64.Decode(payload)
    case None => None
    case Some(bytes) => Utf8.Decode(bytes)
  }

  /** `username, password = decoded.split(":", 1)`: split at the first colon;
      None where the unpacking raises because there is no colon. */
  function SplitCredentials(decoded: string): (r: Option<Credentials>)
    ensures r.None? <==> ':' !in decoded
    ensures r.Some? ==> ':' !in r.value.username
    ensures r.Some? ==> r.value.username + ":" + r.value.password == decoded
  {
    match IndexOf(decoded, ':')
    case None => None
    case Some(i) =>
      assert decoded == decoded[..i] + ":" + decoded[i + 1..];
      Some(Credentials(decoded[..i], decoded[i + 1..]))
  }

  /** `decode_basic_auth(header_value)`. Every decoding failure is None,
      never an exception. */
  function DecodeBasicAuth(header: string): (r: Option<Credentials>)
    ensures !StartsWith(header, Scheme) ==> r.None?
    ensures r.Some? <==>
      StartsWith(header, Scheme) &&
      PayloadText(header[|Scheme|..]).Some? &&
      ':' in PayloadText(header[|Scheme|..]).value
    ensures r.Some? ==>
      ':' !in r.value.username &&
      PayloadText(header[|Scheme|..]) == Some(r.value.username + ":" + r.value.password)
  {
    if !StartsWith(header, Scheme) then None
    else
      match PayloadText(header[|Scheme|..])
      case None => None
      case Some(decoded) => SplitCredentials(decoded)
  }

  /** Every character is ASCII. */
  predicate IsAscii(s: string) {
    forall i :: 0 <= i < |s| ==> s[i] as int < 0x80
  }

  /** `secrets.compare_digest(a, b)` on two `str` values: whether they are
      equal, or None for the TypeError it raises when either holds a
      non-ASCII character. The constant running time is not modelled. */
  function CompareDigest(a: string, b: string): (r: Option<bool>)
    ensures r.None? <==> !IsAscii(a) || !IsAscii(b)
    ensures r.Some? ==> (r.value <==> a == b)
  {
    if IsAscii(a) && IsAscii(b) then Some(a == b) else None
  }

  /** The outcome of `check_credentials`: it returns True or False, or
      raises the TypeError of `compare_digest`. */
  datatype Verdict = Pass | Fail | TypeError

  /** `check_credentials(...)`: the user names are compared first and the
      passwords only when those are equal (`and` short-circuits). */
  function CheckCredentials(header: string, expectedUsername: string, expectedPassword: string): (v: Verdict)
    ensures DecodeBasicAuth(header).None? ==> v == Fail
    ensures v == Pass <==>
      DecodeBasicAuth(header) == Some(Credentials(expectedUsername, expectedPassword))
      && IsAscii(expectedUsername) && IsAscii(expectedPassword)
    ensures v == TypeError <==>
      DecodeBasicAuth(header).Some? &&
      var creds := DecodeBasicAuth(header).value;
      || !IsAscii(creds.username) || !IsAscii(expectedUsername)
      || (creds.username == expectedUsername && (!IsAscii(creds.password) || !IsAscii(expectedPassword)))
  {
    match DecodeBasicAuth(header)
    case None => Fail
    case Some(creds) =>
      match CompareDigest(creds.username, expectedUsername)
      case None => TypeError
      case Some(sameUser) =>
        if !sameUser then Fail
        else
          match CompareDigest(creds.password, expectedPassword)
          case None => TypeError
          case Some(samePassword) => if samePassword then Pass else Fail
  }

  /** What a client sends for a user-id and password. */
  function BasicHeader(username: string, password: string): string {
    Scheme + Base64.Encode(Utf8.Encode(username + ":" + password))
  }

  /** Round trip: a header built from a colon-free user-id and any password
      (which may itself contain colons) decodes back to exactly that pair. */
  lemma DecodeBasicHeader(username: string, password: string)
    requires ':' !in username
    ensures DecodeBasicAuth(BasicHeader(username, password)) == Some(Credentials(username, password))
  {
    var text := username + ":" + password;
    var header := BasicHeader(username, password);
    assert header[..|Scheme|] == Scheme;
    assert header[|Scheme|..] == Base64.Encode(Utf8.Encode(text));
    Base64.DecodeEncode(Utf8.Encode(text));
    Utf8.DecodeEncode(text);
    assert text[|username|] == ':';
    var creds := SplitCredentials(text).value;
    // The first colon of the text is the one after the user-id.
    assert creds.username == text[..|username|] == username;
    assert creds.password == text[|username| + 1..] == password;
  }

  /** Such a header passes the check for its own pair and for no other,
      as long as its user name and password are ASCII; a non-ASCII user
      name makes the check raise whatever is expected. */
  lemma CheckBasicHeader(username: string, password: string, expectedUsername: string, expectedPassword: string)
    requires ':' !in username
    ensures CheckCredentials(BasicHeader(username, password), expectedUsername, expectedPassword) == Pass
        <==> username == expectedUsername && password == expectedPassword && IsAscii(username) && IsAscii(password)
    ensures IsAscii(username) && IsAscii(password) && IsAscii(expectedUsername) && IsAscii(expectedPassword) ==>
      CheckCredentials(BasicHeader(username, password), expectedUsername, expectedPassword) != TypeError
    ensures !IsAscii(username) ==>
      CheckCredentials(BasicHeader(username, password), expectedUsername, expectedPassword) == TypeError
  {
    DecodeBasicHeader(username, password);
  }
}

=== FILE: base64.dfy ===
/**
 * The base 64 encoding of section 4 of RFC 4648 (alphabet `A-Z a-z 0-9 + /`,
 * `=` padding to a multiple of four characters), decoded strictly.
 */
module Base64 {
  import opened Basics

  /** The alphabet character for a six-bit value (Table 1 of RFC 4648). */
  function CharOf(i: int): (c: char)
    requires 0 <= i < 64
    ensures c != '='
  {
    if i < 26 then ('A' as int + i) as char
    else if i < 52 then ('a' as int + i - 26) as char
    else if i < 62 then ('0' as int + i - 52) as char
    else if i == 62 then '+'
    else '/'
  }

  /** The six-bit value of an alphabet character, None for any other character. */
  function ValueOf(c: char): (r: Option<int>)
    ensures r.Some? ==> 0 <= r.value < 64
  {
    if 'A' <= c <= 'Z' then Some(c as int - 'A' as int)
    else if 'a' <= c <= 'z' then Some(c as int - 'a' as int + 26)
    else if '0' <= c <= '9' then Some(c as int - '0' as int + 52)
    else if c == '+' then Some(62)
    else if c == '/' then Some(63)
    else None
  }

  predicate InAlphabet(c: char) {
    ValueOf(c).Some?
  }

  /** Every six-bit value has exactly one alphabet character. */
  lemma ValueOfCharOf(i: int)
    requires 0 <= i < 64
    ensures ValueOf(CharOf(i)) == Some(i)
  {
  }

  /** Three bytes as four characters. */
  function EncodeBlock(a: byte, b: byte, c: byte): (r: string)
    ensures |r| == 4 && r[3] != '='
  {
    [CharOf(a as int / 4), CharOf(a as int % 4 * 16 + b as int / 16),
     CharOf(b as int % 16 * 4 + c as int / 64), CharOf(c as int % 64)]
  }

  /** The last one or two bytes, padded to a full quantum. */
  function EncodeTail(bs: seq<byte>): (r: string)
    requires |bs| < 3
    ensures |bs| == 0 ==> r == ""
    ensures |bs| > 0 ==> |r| == 4 && r[3] == '='
  {
    if |bs| == 0 then ""
    else if |bs| == 1 then
      [CharOf(bs[0] as int / 4), CharOf(bs[0] as int % 4 * 16), '=', '=']
    else
      [CharOf(bs[0] as int / 4), CharOf(bs[0] as int % 4 * 16 + bs[1] as int / 16),
       CharOf(bs[1] as int % 16 * 4), '=']
  }

  /** `base64.b64encode(bs)` as text. */
  function Encode(bs: seq<byte>): (r: string)
    ensures |r| == (|bs| + 2) / 3 * 4
    decreases |bs|
  {
    if |bs| < 3 then EncodeTail(bs)
    else EncodeBlock(bs[0], bs[1], bs[2]) + Encode(bs[3..])
  }

  /** Four alphabet characters as three bytes. */
  function DecodeBlock(q: string): (r: Option<seq<byte>>)
    requires |q| == 4
    ensures r.Some? ==> |r.value| == 3
  {
    if InAlphabet(q[0]) && InAlphabet(q[1]) && InAlphabet(q[2]) && InAlphabet(q[3]) then
      var v0, v1, v2, v3 := ValueOf(q[0]).value, ValueOf(q[1]).value, ValueOf(q[2]).value, ValueOf(q[3]).value;
      Some([v0 * 4 + v1 / 16, v1 % 16 * 16 + v2 / 4, v2 % 4 * 64 + v3])
    else None
  }

  /** The final quantum, which may carry one or two padding characters. */
  function DecodeFinal(q: string): (r: Option<seq<byte>>)
    requires |q| == 4
    ensures r.Some? ==> 1 <= |r.value| <= 3
  {
    if q[2] == '=' && q[3] == '=' then
      if InAlphabet(q[0]) && InAlphabet(q[1]) then
        Some([ValueOf(q[0]).value * 4 + ValueOf(q[1]).value / 16])
      else None
    else if q[3] == '=' then
      if InAlphabet(q[0]) && InAlphabet(q[1]) && InAlphabet(q[2]) then
        var v0, v1, v2 := ValueOf(q[0]).value, ValueOf(q[1]).value, ValueOf(q[2]).value;
        Some([v0 * 4 + v1 / 16, v1 % 16 * 16 + v2 / 4])
      else None
    else DecodeBlock(q)
  }

  /** `base64.b64decode(s)` for well-formed input; None where Python raises
      `binascii.Error`. Padding may appear only in the last quantum. */
  function Decode(s: string): (r: Option<seq<byte>>)
    ensures r.Some? ==> |s| % 4 == 0 && |r.value| <= |s| / 4 * 3
    decreases |s|
  {
    if |s| == 0 then Some([])
    else if |s| < 4 then None
    else if |s| == 4 then DecodeFinal(s)
    else
      match DecodeBlock(s[..4])
      case None => None
      case Some(head) =>
        match Decode(s[4..])
        case None => None
        case Some(tail) => Some(head + tail)
  }

  lemma DecodeEncodeBlock(a: byte, b: byte, c: byte)
    ensures DecodeBlock(EncodeBlock(a, b, c)) == Some([a, b, c])
    ensures DecodeFinal(EncodeBlock(a, b, c)) == Some([a, b, c])
  {
    var x, y, z := a as int, b as int, c as int;
    var v0, v1, v2, v3 := x / 4, x % 4 * 16 + y / 16, y % 16 * 4 + z / 64, z % 64;
    ValueOfCharOf(v0);
    ValueOfCharOf(v1);
    ValueOfCharOf(v2);
    ValueOfCharOf(v3);
    assert v1 / 16 == x % 4 && v1 % 16 == y / 16;
    assert v2 / 4 == y % 16 && v2 % 4 == z / 64;
    assert v0 * 4 + v1 / 16 == x;
    assert v1 % 16 * 16 + v2 / 4 == y;
    assert v2 % 4 * 64 + v3 == z;
  }

  lemma DecodeEncodeTail(bs: seq<byte>)
    requires 1 <= |bs| <= 2
    ensures DecodeFinal(EncodeTail(bs)) == Some(bs)
  {
    var x := bs[0] as int;
    ValueOfCharOf(x / 4);
    if |bs| == 1 {
      ValueOfCharOf(x % 4 * 16);
      assert x % 4 * 16 / 16 == x % 4;
      assert x / 4 * 4 + x % 4 == x;
      assert bs == [bs[0]];
    } else {
      var y := bs[1] as int;
      var v1 := x % 4 * 16 + y / 16;
      ValueOfCharOf(v1);
      ValueOfCharOf(y % 16 * 4);
      assert v1 / 16 == x % 4 && v1 % 16 == y / 16;
      assert y % 16 * 4 / 4 == y % 16;
      assert bs == [bs[0], bs[1]];
    }
  }

  /** Decoding proceeds quantum by quantum. */
  lemma DecodeStep(s: string)
    requires |s| > 4 && DecodeBlock(s[..4]).Some? && Decode(s[4..]).Some?
    ensures Decode(s) == Some(DecodeBlock(s[..4]).value + Decode(s[4..]).value)
  {
  }

  /** Round trip: decoding an encoding gives back the bytes. */
  lemma {:induction false} DecodeEncode(bs: seq<byte>)
    ensures Decode(Encode(bs)) == Some(bs)
    decreases |bs|
  {
    var e := Encode(bs);
    if |bs| == 0 {
    } else if |bs| < 3 {
      assert e == EncodeTail(bs);
      DecodeEncodeTail(bs);
    } else {
      var block := EncodeBlock(bs[0], bs[1], bs[2]);
      assert e == block + Encode(bs[3..]);
      DecodeEncodeBlock(bs[0], bs[1], bs[2]);
      assert bs == [bs[0], bs[1], bs[2]] + bs[3..];
      if |bs| == 3 {
        assert Encode(bs[3..]) == "";
        assert e == block;
        assert Decode(e) == DecodeFinal(block);
        assert bs == [bs[0], bs[1], bs[2]];
      } else {
        assert e[..4] == block && e[4..] == Encode(bs[3..]);
        DecodeEncode(bs[3..]);
        DecodeStep(e);
      }
    }
  }
}

=== FILE: basics.dfy ===
/** Small shared vocabulary: an optional value and the byte type. */
module Basics {

  /** A value that may be absent; Python's `Optional[...]` / `None`. */
  datatype Option<+T> = None | Some(value: T)

  /** An octet, as found in Python `bytes` objects and on disk. */
  type byte = x: int | 0 <= x < 256
}

=== FILE: html_render.dfy ===
/**
 * `render_html`: the options of the page pick which refresh interval and
 * which line limit are shown as selected, whether auto-scroll is checked,
 * whether log levels are coloured, and the URL prefix the page's script
 * calls; each becomes a value for one mark of the page template.
 */
module HtmlRender {
  import opened Basics
  import opened Text
  import opened Template

  /** The keyword arguments of `render_html`. */
  datatype Options = Options(
    baseUrl: string,
    autoRefresh: bool,
    refreshTimer: int,
    autoScroll: bool,
    colorize: bool,
    defaultLines: int)

  /** The defaults of `render_html`. */
  const Defaults: Options := Options("", true, 5000, true, true, 100)

  /** The refresh intervals (milliseconds) whose marks are substituted, in
      order, as numbers and as the text the marks carry. */
  const RefreshChoices: seq<int> := [0, 1000, 3000, 5000, 10000, 30000, 60000]
  const RefreshTexts: seq<string> := ["0", "1000", "3000", "5000", "10000", "30000", "60000"]

  /** The supported line limits, in the order their marks are substituted. */
  const LineChoices: seq<int> := [0, 100, 250, 500, 1000]
  const LineTexts: seq<string> := ["0", "100", "250", "500", "1000"]

  /** The line limit used when the requested one is not supported. */
  const FallbackLines: int := 100

  const AutoScrollMark: string := "AUTO_SCROLL_CHECKED"
  const BodyClassMark: string := "BODY_CLASS"
  const BaseUrlMark: string := "BASE_URL"

  // The texts are the decimal renderings of the numbers.

  lemma Text0() ensures IntToStr(0) == "0" {}

  lemma Text100() ensures IntToStr(100) == "100" {
    assert NatToStr(1) == "1";
    assert NatToStr(10) == "10";
  }

  lemma Text250() ensures IntToStr(250) == "250" {
    assert NatToStr(2) == "2";
    assert NatToStr(25) == "25";
  }

  lemma Text500() ensures IntToStr(500) == "500" {
    assert NatToStr(5) == "5";
    assert NatToStr(50) == "50";
  }

  lemma TextThousands(d: nat)
    requires 1 <= d <= 9
    ensures IntToStr(d * 1000) == [DigitChar(d)] + "000"
  {
    assert NatToStr(d) == [DigitChar(d)];
    assert NatToStr(d * 10) == [DigitChar(d)] + "0";
    assert NatToStr(d * 100) == [DigitChar(d)] + "00";
  }

  lemma TextTenThousands(d: nat)
    requires 1 <= d <= 9
    ensures IntToStr(d * 10000) == [DigitChar(d)] + "0000"
  {
    TextThousands(d);
    assert NatToStr(d * 1000) == [DigitChar(d)] + "000";
  }

  lemma Text1000() ensures IntToStr(1000) == "1000" {
    TextThousands(1);
    assert DigitChar(1) == '1';
  }

  lemma Text3000() ensures IntToStr(3000) == "3000" {
    TextThousands(3);
    assert DigitChar(3) == '3';
  }

  lemma Text5000() ensures IntToStr(5000) == "5000" {
    TextThousands(5);
    assert DigitChar(5) == '5';
  }

  lemma Text10000() ensures IntToStr(10000) == "10000" {
    TextTenThousands(1);
    assert DigitChar(1) == '1';
  }

  lemma Text30000() ensures IntToStr(30000) == "30000" {
    TextTenThousands(3);
    assert DigitChar(3) == '3';
  }

  lemma Text60000() ensures IntToStr(60000) == "60000" {
    TextTenThousands(6);
    assert DigitChar(6) == '6';
  }

  lemma RefreshTextAt(i: int)
    requires 0 <= i < |RefreshChoices|
    ensures IntToStr(RefreshChoices[i]) == RefreshTexts[i]
  {
    if i == 0 { Text0(); }
    else if i == 1 { Text1000(); }
    else if i == 2 { Text3000(); }
    else if i == 3 { Text5000(); }
    else if i == 4 { Text10000(); }
    else if i == 5 { Text30000(); }
    else { Text60000(); }
  }

  lemma RefreshTextsAreDecimal()
    ensures forall i :: 0 <= i < |RefreshChoices| ==> IntToStr(RefreshChoices[i]) == RefreshTexts[i]
  {
    forall i | 0 <= i < |RefreshChoices| ensures IntToStr(RefreshChoices[i]) == RefreshTexts[i] {
      RefreshTextAt(i);
    }
  }

  lemma LineTextsAreDecimal()
    ensures forall i :: 0 <= i < |LineChoices| ==> IntToStr(LineChoices[i]) == LineTexts[i]
  {
    Text0();
    Text100();
    Text250();
    Text500();
    Text1000();
  }

  /** The refresh value shown as selected: the timer when auto-refresh is
      on, "0" (manual) otherwise. */
  function SelectedRefresh(o: Options): (r: string)
    ensures r == IntToStr(if o.autoRefresh then o.refreshTimer else 0)
    ensures ParseInt(r) == Some(if o.autoRefresh then o.refreshTimer else 0)
  {
    Text0();
    IntToStrRoundTrip(if o.autoRefresh then o.refreshTimer else 0);
    if o.autoRefresh then IntToStr(o.refreshTimer) else "0"
  }

  /** The line limit shown as selected: the requested one when its text is
      one of the supported limits, the fallback otherwise. */
  function SelectedLines(defaultLines: int): (r: string)
    ensures r in LineTexts
    ensures r == IntToStr(if defaultLines in LineChoices then defaultLines else FallbackLines)
    ensures ParseInt(r) == Some(if defaultLines in LineChoices then defaultLines else FallbackLines)
  {
    var s := IntToStr(defaultLines);
    LineTextsAreDecimal();
    Text100();
    IntToStrRoundTrip(if defaultLines in LineChoices then defaultLines else FallbackLines);
    if s in LineTexts then
      var i :| 0 <= i < |LineTexts| && LineTexts[i] == s;
      IntToStrInjective(defaultLines, LineChoices[i]);
      s
    else
      assert defaultLines !in LineChoices by {
        forall i | 0 <= i < |LineChoices| ensures LineChoices[i] != defaultLines {
          assert IntToStr(LineChoices[i]) == LineTexts[i];
        }
      }
      "100"
  }

  /** "selected" for the chosen option, nothing for the others. */
  function Mark(chosen: bool): string {
    if chosen then "selected" else ""
  }

  /** One mark per choice, "selected" for the chosen one. */
  function ChoicePairs(texts: seq<string>, prefix: string, chosen: string): (r: seq<(string, string)>)
    ensures |r| == |texts|
    ensures forall i :: 0 <= i < |texts| ==> r[i].1 == "selected" || r[i].1 == ""
  {
    seq(|texts|, i requires 0 <= i < |texts| => (prefix + texts[i] + "_SELECTED", Mark(chosen == texts[i])))
  }

  /** The replace calls of `render_html`, in order: the seven refresh
      marks, the five line-limit marks, auto-scroll, body class, base URL. */
  function Substitutions(o: Options): (r: seq<(string, string)>)
    ensures |r| == 15
    ensures forall i :: 0 <= i < 12 ==> r[i].1 == "selected" || r[i].1 == ""
    ensures r[14] == (BaseUrlMark, TrimSlashes(o.baseUrl))
  {
    ChoicePairs(RefreshTexts, "REFRESH_", SelectedRefresh(o))
    + ChoicePairs(LineTexts, "LINES_", SelectedLines(o.defaultLines))
    + [ (AutoScrollMark, if o.autoScroll then "checked" else ""),
        (BodyClassMark, if o.colorize then "colorize" else ""),
        (BaseUrlMark, TrimSlashes(o.baseUrl)) ]
  }

  /** `render_html(base_url, ...)` applied to a page template; a template
      without marks comes back unchanged. */
  function RenderHtml(template: string, o: Options): (r: string)
    ensures !Contains(template, "{{") ==> r == template
  {
    var subs := Substitutions(o);
    assert !Contains(template, "{{") ==> ReplaceSeq(template, subs) == template by {
      if !Contains(template, "{{") {
        ReplaceSeqWithoutMarks(template, subs);
      }
    }
    ReplaceSeq(template, subs)
  }

  /** What each mark of the page receives. */
  function Assignment(o: Options): map<string, string> {
    Assign(map[], Substitutions(o))
  }

  /** The fifteen names `render_html` replaces, in order. */
  function MarkNames(): (r: seq<string>)
    ensures |r| == 15
  {
    seq(|RefreshTexts|, i requires 0 <= i < |RefreshTexts| => "REFRESH_" + RefreshTexts[i] + "_SELECTED")
    + seq(|LineTexts|, i requires 0 <= i < |LineTexts| => "LINES_" + LineTexts[i] + "_SELECTED")
    + [AutoScrollMark, BodyClassMark, BaseUrlMark]
  }

  lemma FramedInjective(pre: string, a: string, b: string, post: string)
    requires pre + a + post == pre + b + post
    ensures a == b
  {
    assert |a| == |b|;
    assert a == (pre + a + post)[|pre|..|pre| + |a|];
    assert b == (pre + b + post)[|pre|..|pre| + |b|];
  }

  lemma DigitsName(pre: string, v: string, post: string)
    requires IsName(pre) && IsName(post)
    requires forall i :: 0 <= i < |v| ==> '0' <= v[i] <= '9'
    ensures IsName(pre + v + post)
  {
    var s := pre + v + post;
    forall i | 0 <= i < |s| ensures IsNameChar(s[i]) {
      if i < |pre| {
        assert s[i] == pre[i];
      } else if i < |pre| + |v| {
        assert s[i] == v[i - |pre|];
      } else {
        assert s[i] == post[i - |pre| - |v|];
      }
    }
  }

  lemma MarkNamesAreNames()
    ensures forall i :: 0 <= i < 15 ==> IsName(MarkNames()[i])
  {
    var names := MarkNames();
    assert IsName("REFRESH_") && IsName("_SELECTED") && IsName("LINES_");
    forall i | 0 <= i < 7 ensures IsName(names[i]) {
      DigitsName("REFRESH_", RefreshTexts[i], "_SELECTED");
    }
    forall i | 7 <= i < 12 ensures IsName(names[i]) {
      DigitsName("LINES_", LineTexts[i - 7], "_SELECTED");
    }
    assert IsName(AutoScrollMark) && IsName(BodyClassMark) && IsName(BaseUrlMark);
  }

  lemma RefreshMarksDistinct(i: int, j: int)
    requires 0 <= i < j < 7
    ensures MarkNames()[i] != MarkNames()[j]
  {
    assert RefreshTexts[i] != RefreshTexts[j];
    if MarkNames()[i] == MarkNames()[j] {
      FramedInjective("REFRESH_", RefreshTexts[i], RefreshTexts[j], "_SELECTED");
    }
  }

  lemma LinesMarksDistinct(i: int, j: int)
    requires 7 <= i < j < 12
    ensures MarkNames()[i] != MarkNames()[j]
  {
    assert LineTexts[i - 7] != LineTexts[j - 7];
    if MarkNames()[i] == MarkNames()[j] {
      FramedInjective("LINES_", LineTexts[i - 7], LineTexts[j - 7], "_SELECTED");
    }
  }

  /** The names are names of marks, and no two are the same. */
  lemma MarkNamesDistinct()
    ensures forall i :: 0 <= i < 15 ==> IsName(MarkNames()[i])
    ensures forall i, j :: 0 <= i < j < 15 ==> MarkNames()[i] != MarkNames()[j]
  {
    MarkNamesAreNames();
    var names := MarkNames();
    forall i, j | 0 <= i < j < 15 ensures names[i] != names[j] {
      if j < 7 {
        RefreshMarksDistinct(i, j);
      } else if 7 <= i && j < 12 {
        LinesMarksDistinct(i, j);
      } else if i < 7 {
        assert names[i][0] == 'R' != names[j][0];
      } else if i < 12 {
        assert names[i][0] == 'L' != names[j][0];
      } else {
        assert names[i][1] != names[j][1];
      }
    }
  }

  lemma SubstitutionNameAt(o: Options, i: int)
    requires 0 <= i < 15
    ensures Substitutions(o)[i].0 == MarkNames()[i]
  {
    SubstitutionParts(o);
    var subs, names := Substitutions(o), MarkNames();
    if i < 7 {
      assert subs[i] == subs[..7][i];
      assert names[i] == "REFRESH_" + RefreshTexts[i] + "_SELECTED";
    } else if i < 12 {
      assert subs[i] == subs[7..12][i - 7];
      assert names[i] == "LINES_" + LineTexts[i - 7] + "_SELECTED";
    } else {
      assert subs[i] == subs[12..][i - 12];
    }
  }

  lemma SubstitutionNames(o: Options)
    ensures |Substitutions(o)| == 15
    ensures forall i :: 0 <= i < 15 ==> Substitutions(o)[i].0 == MarkNames()[i]
  {
    forall i | 0 <= i < 15 ensures Substitutions(o)[i].0 == MarkNames()[i] {
      SubstitutionNameAt(o, i);
    }
  }

  lemma SubstitutionValueAt(o: Options, i: int)
    requires 0 <= i < 14
    ensures '{' !in Substitutions(o)[i].1
  {
    SubstitutionParts(o);
    var subs := Substitutions(o);
    if i < 7 {
      assert subs[i] == subs[..7][i];
    } else if i < 12 {
      assert subs[i] == subs[7..12][i - 7];
    } else {
      assert subs[i] == subs[12..][i - 12];
    }
  }

  lemma SubstitutionValues(o: Options)
    ensures |Substitutions(o)| == 15
    ensures forall i :: 0 <= i < 14 ==> '{' !in Substitutions(o)[i].1
  {
    forall i | 0 <= i < 14 ensures '{' !in Substitutions(o)[i].1 {
      SubstitutionValueAt(o, i);
    }
  }

  /** The substitutions name the fifteen marks in order, and every value
      but the base URL's is free of `{`. */
  lemma SubstitutionsShape(o: Options)
    ensures |Substitutions(o)| == 15
    ensures forall i :: 0 <= i < 15 ==> Substitutions(o)[i].0 == MarkNames()[i]
    ensures Distinct(Substitutions(o))
    ensures forall i :: 0 <= i < 15 ==> IsName(Substitutions(o)[i].0)
    ensures forall i :: 0 <= i < 14 ==> '{' !in Substitutions(o)[i].1
  {
    MarkNamesDistinct();
    SubstitutionNames(o);
    SubstitutionValues(o);
  }

  /** On a well-formed template the chain of replace calls is one pass
      that puts each mark's value in place. */
  lemma RenderIsFill(template: string, o: Options)
    requires WellFormed(template)
    ensures RenderHtml(template, o) == Fill(template, Assignment(o))
  {
    SubstitutionsShape(o);
    ReplaceSeqIsFill(template, Substitutions(o));
  }

  /** The interval the page shows: the timer with auto-refresh on, manual
      (0) otherwise. */
  function ShownInterval(o: Options): int {
    if o.autoRefresh then o.refreshTimer else 0
  }

  /** The line limit the page shows. */
  function ShownLines(o: Options): int {
    if o.defaultLines in LineChoices then o.defaultLines else FallbackLines
  }

  /** The mark at index i of the names receives its substitution's value. */
  lemma AssignmentAt(o: Options, i: int)
    requires 0 <= i < 15
    ensures MarkNames()[i] in Assignment(o)
    ensures Assignment(o)[MarkNames()[i]] == Substitutions(o)[i].1
  {
    SubstitutionsShape(o);
    AssignLookup(map[], Substitutions(o));
  }

  /** The first seven substitutions are the refresh marks, the next five the
      line-limit marks, the last three the flags and the base URL. */
  lemma SubstitutionParts(o: Options)
    ensures Substitutions(o)[..7] == ChoicePairs(RefreshTexts, "REFRESH_", SelectedRefresh(o))
    ensures Substitutions(o)[7..12] == ChoicePairs(LineTexts, "LINES_", SelectedLines(o.defaultLines))
    ensures Substitutions(o)[12..] == [ (AutoScrollMark, if o.autoScroll then "checked" else ""),
                                        (BodyClassMark, if o.colorize then "colorize" else ""),
                                        (BaseUrlMark, TrimSlashes(o.baseUrl)) ]
  {
    var refresh := ChoicePairs(RefreshTexts, "REFRESH_", SelectedRefresh(o));
    var lines := ChoicePairs(LineTexts, "LINES_", SelectedLines(o.defaultLines));
    var flags := [ (AutoScrollMark, if o.autoScroll then "checked" else ""),
                   (BodyClassMark, if o.colorize then "colorize" else ""),
                   (BaseUrlMark, TrimSlashes(o.baseUrl)) ];
    assert Substitutions(o) == refresh + lines + flags;
    assert (refresh + lines + flags)[..7] == refresh;
    assert (refresh + lines + flags)[7..12] == lines;
    assert (refresh + lines + flags)[12..] == flags;
  }

  lemma RefreshValue(o: Options, i: int)
    requires 0 <= i < 7
    ensures Substitutions(o)[i].1 == Mark(RefreshChoices[i] == ShownInterval(o))
  {
    RefreshTextsAreDecimal();
    SubstitutionParts(o);
    assert Substitutions(o)[i] == Substitutions(o)[..7][i];
    IntToStrInjective(RefreshChoices[i], ShownInterval(o));
  }

  lemma LinesValue(o: Options, i: int)
    requires 0 <= i < 5
    ensures Substitutions(o)[7 + i].1 == Mark(LineChoices[i] == ShownLines(o))
  {
    LineTextsAreDecimal();
    SubstitutionParts(o);
    assert Substitutions(o)[7 + i] == Substitutions(o)[7..12][i];
    IntToStrInjective(LineChoices[i], ShownLines(o));
  }

  /** The value the page gets for the mark at index i, or nothing when that
      mark is not assigned. */
  function ValueAt(o: Options, i: int): string
    requires 0 <= i < 15
  {
    if MarkNames()[i] in Assignment(o) then Assignment(o)[MarkNames()[i]] else ""
  }

  /** The value the page gets for the i-th line-limit option. */
  function LinesOptionAt(o: Options, i: int): string
    requires 0 <= i < 5
  {
    ValueAt(o, 7 + i)
  }

  /** What every mark receives, stated on the numbers rather than on their
      texts: the refresh option for an interval is selected exactly when it
      is the shown interval, the line-limit option likewise, and the other
      three marks get the flags' words and the trimmed base URL. */
  lemma AssignmentValues(o: Options)
    ensures forall i :: 0 <= i < 15 ==> MarkNames()[i] in Assignment(o)
    ensures forall i :: 0 <= i < 7 ==> ValueAt(o, i) == Mark(RefreshChoices[i] == ShownInterval(o))
    ensures forall i :: 0 <= i < 5 ==> LinesOptionAt(o, i) == Mark(LineChoices[i] == ShownLines(o))
    ensures ValueAt(o, 12) == (if o.autoScroll then "checked" else "")
    ensures ValueAt(o, 13) == (if o.colorize then "colorize" else "")
    ensures ValueAt(o, 14) == TrimSlashes(o.baseUrl)
  {
    forall i | 0 <= i < 15 ensures MarkNames()[i] in Assignment(o) && ValueAt(o, i) == Substitutions(o)[i].1 {
      AssignmentAt(o, i);
    }
    forall i | 0 <= i < 7 ensures ValueAt(o, i) == Mark(RefreshChoices[i] == ShownInterval(o)) {
      RefreshValue(o, i);
    }
    forall i | 0 <= i < 5 ensures LinesOptionAt(o, i) == Mark(LineChoices[i] == ShownLines(o)) {
      LinesValue(o, i);
    }
  }

  lemma LinesOptionMeaning(o: Options, i: int)
    requires 0 <= i < 5
    ensures LinesOptionAt(o, i) == Mark(LineChoices[i] == ShownLines(o))
  {
    AssignmentAt(o, 7 + i);
    LinesValue(o, i);
  }

  lemma ChoiceIndex(i: int, k: int)
    requires 0 <= i < 5 && 0 <= k < 5
    ensures LineChoices[i] == LineChoices[k] <==> i == k
  {
  }

  /** The line-limit option at index k is the only one selected. */
  predicate OnlyLinesOption(o: Options, k: int) {
    && 0 <= k < 5
    && forall i :: 0 <= i < 5 ==> (LinesOptionAt(o, i) == "selected" <==> i == k)
  }

  /** Exactly one line-limit option is selected, whatever default is asked
      for. */
  lemma OneLinesOptionSelected(o: Options)
    ensures exists k :: OnlyLinesOption(o, k)
  {
    assert LineChoices[1] == FallbackLines;
    var k :| 0 <= k < 5 && LineChoices[k] == ShownLines(o);
    forall i | 0 <= i < 5 ensures LinesOptionAt(o, i) == "selected" <==> i == k {
      LinesOptionMeaning(o, i);
      ChoiceIndex(i, k);
    }
    assert OnlyLinesOption(o, k);
  }

  /** The value the page gets for the i-th refresh option. */
  function RefreshOptionAt(o: Options, i: int): string
    requires 0 <= i < 7
  {
    ValueAt(o, i)
  }

  lemma RefreshOptionMeaning(o: Options, i: int)
    requires 0 <= i < 7
    ensures RefreshOptionAt(o, i) == Mark(RefreshChoices[i] == ShownInterval(o))
  {
    AssignmentAt(o, i);
    RefreshValue(o, i);
  }

  lemma RefreshChoiceIndex(i: int, k: int)
    requires 0 <= i < 7 && 0 <= k < 7
    ensures RefreshChoices[i] == RefreshChoices[k] <==> i == k
  {
  }

  /** The refresh option at index k is the only one selected. */
  predicate OnlyRefreshOption(o: Options, k: int) {
    && 0 <= k < 7
    && forall i :: 0 <= i < 7 ==> (RefreshOptionAt(o, i) == "selected" <==> i == k)
  }

  /** When the shown interval is one of the choices, its option is the only
      one selected; otherwise no refresh option is selected at all. */
  lemma RefreshOptionSelected(o: Options)
    ensures ShownInterval(o) in RefreshChoices ==> OnlyRefreshOption(o, IndexOfChoice(ShownInterval(o)))
    ensures ShownInterval(o) !in RefreshChoices ==> forall i :: 0 <= i < 7 ==> RefreshOptionAt(o, i) == ""
  {
    if ShownInterval(o) in RefreshChoices {
      var k := IndexOfChoice(ShownInterval(o));
      forall i | 0 <= i < 7 ensures RefreshOptionAt(o, i) == "selected" <==> i == k {
        RefreshOptionMeaning(o, i);
        RefreshChoiceIndex(i, k);
      }
    } else {
      forall i | 0 <= i < 7 ensures RefreshOptionAt(o, i) == "" {
        RefreshOptionMeaning(o, i);
      }
    }
  }

  /** The position of an interval among the refresh choices. */
  function IndexOfChoice(interval: int): (k: int)
    requires interval in RefreshChoices
    ensures 0 <= k < 7 && RefreshChoices[k] == interval
  {
    if interval == 0 then 0
    else if interval == 1000 then 1
    else if interval == 3000 then 2
    else if interval == 5000 then 3
    else if interval == 10000 then 4
    else if interval == 30000 then 5
    else 6
  }

  /** When the base URL has no `{`, no mark that `render_html` substitutes
      is left in the page. */
  lemma RenderLeavesNoMark(template: string, o: Options)
    requires WellFormed(template) && '{' !in o.baseUrl
    ensures forall i :: 0 <= i < 15 ==> !Contains(RenderHtml(template, o), Placeholder(MarkNames()[i]))
  {
    RenderIsFill(template, o);
    SubstitutionsShape(o);
    var subs := Substitutions(o);
    var m := Assignment(o);
    AssignLookup(map[], subs);
    var trimmed := TrimSlashes(o.baseUrl);
    assert '{' !in trimmed by {
      assert trimmed == o.baseUrl[..|trimmed|];
    }
    SubstitutionValues(o);
    assert subs[14].1 == trimmed;
    assert BraceFree(m) by {
      forall k | k in m ensures '{' !in m[k] {
        var i :| 0 <= i < |subs| && subs[i].0 == k;
        assert m[k] == subs[i].1;
      }
    }
    forall i | 0 <= i < 15 ensures !Contains(RenderHtml(template, o), Placeholder(MarkNames()[i])) {
      FillRemoves(template, m, MarkNames()[i]);
    }
  }

  /** With the defaults, the 5-second refresh and the last 100 lines are
      selected, auto-scroll is checked, levels are coloured, and the base
      URL is empty. */
  lemma DefaultsSelect()
    ensures ValueAt(Defaults, 3) == "selected"
    ensures ValueAt(Defaults, 8) == "selected"
    ensures ValueAt(Defaults, 12) == "checked"
    ensures ValueAt(Defaults, 13) == "colorize"
    ensures ValueAt(Defaults, 14) == ""
  {
    AssignmentValues(Defaults);
    assert ShownLines(Defaults) == 100;
    assert LineChoices[1] == 100;
    assert RefreshChoices[3] == 5000;
  }
}

=== FILE: log_directory.dfy ===
/**
 * `LogDirectory`: the root of the log tree, the resolution of
 * client-supplied file names into it, listing, clearing and deleting.
 *
 * The filesystem is a map from path texts to nodes. Nothing ties a key to
 * a parent directory: a file counts as below the root when its path text
 * lies below the root's. In a map drawn from a real tree these are the
 * files `os.walk` reaches. Symbolic links are
 * not nodes of their own: `os.path.realpath` is a function handed in by the
 * caller, which captures whatever links the real filesystem holds.
 */
module LogDirectory {
  import opened Basics
  import opened Text
  import opened PosixPath
  import StringOrder

  datatype Node = File(data: seq<byte>) | Directory

  /** Paths, as texts of Unicode scalar values, to the nodes they name. */
  type FileSystem = map<string, Node>

  /** `os.path.isfile(p)` */
  predicate IsFile(fs: FileSystem, p: string) {
    p in fs && fs[p].File?
  }

  /** `os.path.isdir(p)` */
  predicate IsDir(fs: FileSystem, p: string) {
    p in fs && fs[p].Directory?
  }

  /** `LogDirectory(path)`: the root is made absolute once, at construction. */
  datatype LogDir = LogDir(path: string)

  function MakeLogDir(cwd: string, path: string): (d: LogDir)
    requires IsAbs(cwd)
    ensures IsAbs(d.path)
  {
    LogDir(AbsPath(cwd, path))
  }

  /** The checks `_safe_resolve` makes, in order, all passing. */
  predicate Resolvable(dir: LogDir, fs: FileSystem, realpath: string -> string, relative: string) {
    var safe := NormPath(relative);
    && !StartsWith(safe, "..")
    && !IsAbs(safe)
    && StartsWith(realpath(JoinPath(dir.path, safe)), realpath(dir.path))
    && IsFile(fs, realpath(JoinPath(dir.path, safe)))
  }

  /** `_safe_resolve(relative)`: the canonical path of an existing regular
      file inside the root, or None. */
  function SafeResolve(dir: LogDir, fs: FileSystem, realpath: string -> string, relative: string): (r: Option<string>)
    ensures StartsWith(NormPath(relative), "..") || IsAbs(NormPath(relative)) ==> r.None?
    ensures r.Some? <==> Resolvable(dir, fs, realpath, relative)
    ensures r.Some? ==> StartsWith(r.value, realpath(dir.path)) && IsFile(fs, r.value)
    ensures r.Some? ==> r.value == realpath(JoinPath(dir.path, NormPath(relative)))
  {
    var safe := NormPath(relative);
    if StartsWith(safe, "..") || IsAbs(safe) then None
    else
      var full := realpath(JoinPath(dir.path, safe));
      if !StartsWith(full, realpath(dir.path)) then None
      else if !IsFile(fs, full) then None
      else Some(full)
  }

  /** Before any filesystem call, a name that passes the syntactic checks
      names the root itself (`.`) or a path below it, reached through clean
      components none of which is `..`. */
  lemma ResolvedCandidateBelowRoot(dir: LogDir, fs: FileSystem, realpath: string -> string, relative: string)
    requires SafeResolve(dir, fs, realpath, relative).Some?
    ensures var safe := NormPath(relative);
      && (safe == "." || safe == Join(Components(relative), "/"))
      && Clean(Components(relative)) && NoParent(Components(relative))
      && JoinPath(dir.path, safe) == (if dir.path == "" || dir.path[|dir.path| - 1] == '/' then dir.path else dir.path + "/") + safe
  {
    NormalizedRelativeHasNoParent(relative);
  }

  /** The containment check is textual, as the source makes it: with an identity
      `realpath`, a root `/var/log` accepts a name that resolves into the
      sibling directory `/var/log2` through a link. */
  lemma PrefixCheckIsTextual()
    ensures var fs := map["/var/log2/x" := File([])];
      var realpath := (p: string) => if p == "/var/log/link" then "/var/log2/x" else p;
      SafeResolve(LogDir("/var/log"), fs, realpath, "link") == Some("/var/log2/x")
  {
    var fs := map["/var/log2/x" := File([])];
    var realpath := (p: string) => if p == "/var/log/link" then "/var/log2/x" else p;
    assert SplitOn("link", '/') == ["link"];
    assert Components("link") == ["link"];
    assert NormPath("link") == "link";
    assert JoinPath("/var/log", "link") == "/var/log/link";
    assert StartsWith("/var/log2/x", "/var/log");
  }

  /** The outcome of a mutation: whether it happened, and the filesystem after. */
  datatype Mutation = Mutation(ok: bool, fs: FileSystem)

  /** `delete_file(relative)` */
  function DeleteFile(dir: LogDir, fs: FileSystem, realpath: string -> string, relative: string): (r: Mutation)
    ensures SafeResolve(dir, fs, realpath, relative).None? ==> !r.ok && r.fs == fs
    ensures SafeResolve(dir, fs, realpath, relative).Some? ==>
      var p := SafeResolve(dir, fs, realpath, relative).value;
      && r.ok && p !in r.fs
      && (forall q :: q != p ==> (q in r.fs <==> q in fs))
      && (forall q :: q in r.fs ==> r.fs[q] == fs[q])
  {
    match SafeResolve(dir, fs, realpath, relative)
    case None => Mutation(false, fs)
    case Some(p) => Mutation(true, fs - {p})
  }

  /** `clear_file(relative)`: truncation to zero bytes. */
  function ClearFile(dir: LogDir, fs: FileSystem, realpath: string -> string, relative: string): (r: Mutation)
    ensures SafeResolve(dir, fs, realpath, relative).None? ==> !r.ok && r.fs == fs
    ensures SafeResolve(dir, fs, realpath, relative).Some? ==>
      var p := SafeResolve(dir, fs, realpath, relative).value;
      && r.ok && p in r.fs && r.fs[p] == File([])
      && r.fs.Keys == fs.Keys
      && (forall q :: q in r.fs && q != p ==> r.fs[q] == fs[q])
  {
    match SafeResolve(dir, fs, realpath, relative)
    case None => Mutation(false, fs)
    case Some(p) => Mutation(true, fs[p := File([])])
  }

  // ---------------------------------------------------------------------
  // Listing
  // ---------------------------------------------------------------------

  /** `LogFileInfo`; the modification time is not modelled. */
  datatype LogFileInfo = LogFileInfo(name: string, size: nat)

  /** What `os.path.join(root, name)` begins with for a file below the root. */
  function ChildPrefix(root: string): string {
    if root != "" && root[|root| - 1] == '/' then root else root + "/"
  }

  /** p lies below the root in the tree `os.walk` visits. */
  predicate Below(root: string, p: string) {
    StartsWith(p, ChildPrefix(root)) && |p| > |ChildPrefix(root)|
  }

  /** `os.path.relpath(p, root)` for a path below the root. */
  function RelPath(root: string, p: string): string
    requires Below(root, p)
  {
    p[|ChildPrefix(root)|..]
  }

  lemma RelPathJoin(root: string, p: string)
    requires Below(root, p)
    ensures ChildPrefix(root) + RelPath(root, p) == p && RelPath(root, p) != ""
  {
  }

  /** The names `list_files` reports: every regular file below the root. */
  function ListedNames(root: string, fs: FileSystem): set<string> {
    set p | p in fs && fs[p].File? && Below(root, p) :: RelPath(root, p)
  }

  /** A record that describes a regular file below the root. */
  predicate Describes(root: string, fs: FileSystem, f: LogFileInfo) {
    f.name != "" && IsFile(fs, ChildPrefix(root) + f.name) && f.size == |fs[ChildPrefix(root) + f.name].data|
  }

  predicate SortedByName(files: seq<LogFileInfo>) {
    forall i, j :: 0 <= i < j < |files| ==> StringOrder.Less(files[i].name, files[j].name)
  }

  /** Inserts a record with a new name into a list sorted by name. */
  function InsertByName(files: seq<LogFileInfo>, f: LogFileInfo): (r: seq<LogFileInfo>)
    requires SortedByName(files)
    requires forall i :: 0 <= i < |files| ==> files[i].name != f.name
    ensures SortedByName(r)
    ensures forall g :: g in r <==> g in files || g == f
    ensures |r| == |files| + 1
  {
    if |files| == 0 then [f]
    else if StringOrder.Less(f.name, files[0].name) then
      forall j | 0 < j < |files| ensures StringOrder.Less(f.name, files[j].name) {
        StringOrder.LessTransitive(f.name, files[0].name, files[j].name);
      }
      [f] + files
    else
      StringOrder.LessTotal(f.name, files[0].name);
      var rest := InsertByName(files[1..], f);
      assert forall g :: g in rest ==> StringOrder.Less(files[0].name, g.name);
      [files[0]] + rest
  }

  /** `list_files()`: empty unless the root is a directory; otherwise one
      record per regular file below the root, sorted by name. */
  method ListFiles(dir: LogDir, fs: FileSystem) returns (files: seq<LogFileInfo>)
    ensures !IsDir(fs, dir.path) ==> files == []
    ensures SortedByName(files)
    ensures forall i :: 0 <= i < |files| ==> Describes(dir.path, fs, files[i])
    ensures IsDir(fs, dir.path) ==> (set i | 0 <= i < |files| :: files[i].name) == ListedNames(dir.path, fs)
  {
    files := [];
    if !IsDir(fs, dir.path) {
      return;
    }
    var root := dir.path;
    var pending := fs.Keys;
    while pending != {}
      invariant pending <= fs.Keys
      invariant SortedByName(files)
      invariant forall g :: g in files ==> Describes(root, fs, g)
      invariant forall g :: g in files ==> ChildPrefix(root) + g.name !in pending
      invariant forall p :: p in fs && p !in pending && fs[p].File? && Below(root, p) ==>
        exists g :: g in files && g.name == RelPath(root, p)
      decreases |pending|
    {
      var p :| p in pending;
      pending := pending - {p};
      if fs[p].File? && Below(root, p) {
        RelPathJoin(root, p);
        var f := LogFileInfo(RelPath(root, p), |fs[p].data|);
        assert forall g :: g in files ==> g.name != f.name;
        files := InsertByName(files, f);
      }
    }
    var names := set i | 0 <= i < |files| :: files[i].name;
    forall n | n in names ensures n in ListedNames(root, fs) {
      var i :| 0 <= i < |files| && files[i].name == n;
      assert files[i] in files;
      var p := ChildPrefix(root) + n;
      assert Below(root, p) && RelPath(root, p) == n;
    }
    forall n | n in ListedNames(root, fs) ensures n in names {
      var p :| p in fs && fs[p].File? && Below(root, p) && RelPath(root, p) == n;
      var g :| g in files && g.name == n;
      var i :| 0 <= i < |files| && files[i] == g;
    }
  }

  /** After a successful delete, the deleted file is no longer listed and
      everything else is. */
  lemma DeleteUnlists(dir: LogDir, fs: FileSystem, realpath: string -> string, relative: string)
    requires DeleteFile(dir, fs, realpath, relative).ok
    ensures var p := SafeResolve(dir, fs, realpath, relative).value;
      ListedNames(dir.path, DeleteFile(dir, fs, realpath, relative).fs) ==
        ListedNames(dir.path, fs) - (if Below(dir.path, p) then {RelPath(dir.path, p)} else {})
  {
    var p := SafeResolve(dir, fs, realpath, relative).value;
    var fs' := DeleteFile(dir, fs, realpath, relative).fs;
    var root := dir.path;
    forall n | n in ListedNames(root, fs')
      ensures n in ListedNames(root, fs) && !(Below(root, p) && n == RelPath(root, p))
    {
      var q :| q in fs' && fs'[q].File? && Below(root, q) && RelPath(root, q) == n;
      RelPathJoin(root, q);
      if Below(root, p) {
        RelPathJoin(root, p);
      }
    }
    forall n | n in ListedNames(root, fs) && !(Below(root, p) && n == RelPath(root, p))
      ensures n in ListedNames(root, fs')
    {
      var q :| q in fs && fs[q].File? && Below(root, q) && RelPath(root, q) == n;
      assert q != p;
      assert q in fs';
    }
  }

  /** Clearing changes no listed name. */
  lemma ClearKeepsListing(dir: LogDir, fs: FileSystem, realpath: string -> string, relative: string)
    requires ClearFile(dir, fs, realpath, relative).ok
    ensures ListedNames(dir.path, ClearFile(dir, fs, realpath, relative).fs) == ListedNames(dir.path, fs)
  {
    var p := SafeResolve(dir, fs, realpath, relative).value;
    var fs' := ClearFile(dir, fs, realpath, relative).fs;
    var root := dir.path;
    forall n | n in ListedNames(root, fs') ensures n in ListedNames(root, fs) {
      var q :| q in fs' && fs'[q].File? && Below(root, q) && RelPath(root, q) == n;
      assert fs[q].File?;
    }
    forall n | n in ListedNames(root, fs) ensures n in ListedNames(root, fs') {
      var q :| q in fs && fs[q].File? && Below(root, q) && RelPath(root, q) == n;
      assert fs'[q].File?;
    }
  }
}

=== FILE: log_reader.dfy ===
/**
 * `LogReader.read`: the text of a log file becomes entries (a line that
 * does not look like the start of an entry continues the previous one),
 * the entries are filtered by level and by a search string, counted, and
 * the newest are returned.
 */
module LogReader {
  import opened Basics
  import opened Text
  import Utf8
  import SplitJoin
  import opened LogDirectory

  // ---------------------------------------------------------------------
  // From bytes to lines
  // ---------------------------------------------------------------------

  /** Universal newlines, as text-mode `open` applies them: `\r\n` and a lone
      `\r` both read as `\n`. */
  function TranslateNewlines(s: string): (r: string)
    ensures '\r' !in r
    ensures '\r' !in s ==> r == s
    decreases |s|
  {
    if |s| == 0 then ""
    else if s[0] == '\r' then "\n" + TranslateNewlines(if |s| > 1 && s[1] == '\n' then s[2..] else s[1..])
    else [s[0]] + TranslateNewlines(s[1..])
  }

  /** Text without a carriage return passes through unchanged, and the
      translation goes on after it. */
  lemma {:induction false} TranslatePlainPrefix(a: string, b: string)
    requires '\r' !in a
    ensures TranslateNewlines(a + b) == a + TranslateNewlines(b)
    decreases |a|
  {
    if |a| > 0 {
      assert (a + b)[0] == a[0] && (a + b)[1..] == a[1..] + b;
      TranslatePlainPrefix(a[1..], b);
      assert a == [a[0]] + a[1..];
    } else {
      assert a + b == b;
    }
  }

  /** One step of the translation at a carriage return. */
  lemma TranslateCrStep(b: string)
    ensures TranslateNewlines("\r" + b) == "\n" + TranslateNewlines(if |b| > 0 && b[0] == '\n' then b[1..] else b)
  {
    var t := "\r" + b;
    assert t[0] == '\r' && t[1..] == b;
    assert |b| > 0 ==> t[1] == b[0] && t[2..] == b[1..];
  }

  /** A `\r\n` pair reads as one `\n`. */
  lemma TranslateCrLf(a: string, b: string)
    requires '\r' !in a
    ensures TranslateNewlines(a + "\r\n" + b) == a + "\n" + TranslateNewlines(b)
  {
    var t := "\r" + ("\n" + b);
    assert a + "\r\n" + b == a + t;
    TranslatePlainPrefix(a, t);
    TranslateCrStep("\n" + b);
    assert ("\n" + b)[1..] == b;
  }

  /** A `\r` not followed by `\n` reads as `\n`. */
  lemma TranslateLoneCr(a: string, b: string)
    requires '\r' !in a
    requires |b| == 0 || b[0] != '\n'
    ensures TranslateNewlines(a + "\r" + b) == a + "\n" + TranslateNewlines(b)
  {
    var t := "\r" + b;
    assert a + "\r" + b == a + t;
    TranslatePlainPrefix(a, t);
    TranslateCrStep(b);
  }

  /** Concatenation of pieces. */
  function Concat(xs: seq<string>): string
    decreases |xs|
  {
    if |xs| == 0 then "" else xs[0] + Concat(xs[1..])
  }

  /** `fh.readlines()`: the text cut after every newline; each line keeps
      its newline, the last may lack one, and no line is empty. */
  function ReadLines(t: string): (r: seq<string>)
    ensures Concat(r) == t
    ensures forall i :: 0 <= i < |r| ==> |r[i]| > 0 && '\n' !in r[i][..|r[i]| - 1]
    ensures forall i :: 0 <= i < |r| - 1 ==> r[i][|r[i]| - 1] == '\n'
    decreases |t|
  {
    match IndexOf(t, '\n')
    case None => if t == "" then [] else [t]
    case Some(i) =>
      var rest := ReadLines(t[i + 1..]);
      assert t == t[..i + 1] + t[i + 1..];
      assert t[..i + 1][..i] == t[..i];
      LinesCons(t[..i + 1], rest);
      [t[..i + 1]] + rest
  }

  /** A line ending in its only newline, put before lines of the shape
      `readlines` returns, keeps that shape. */
  lemma LinesCons(h: string, rest: seq<string>)
    requires |h| > 0 && h[|h| - 1] == '\n' && '\n' !in h[..|h| - 1]
    requires forall i :: 0 <= i < |rest| ==> |rest[i]| > 0 && '\n' !in rest[i][..|rest[i]| - 1]
    requires forall i :: 0 <= i < |rest| - 1 ==> rest[i][|rest[i]| - 1] == '\n'
    ensures var r := [h] + rest;
      && (forall i :: 0 <= i < |r| ==> |r[i]| > 0 && '\n' !in r[i][..|r[i]| - 1])
      && (forall i :: 0 <= i < |r| - 1 ==> r[i][|r[i]| - 1] == '\n')
  {
    var r := [h] + rest;
    assert forall i :: 0 < i < |r| ==> r[i] == rest[i - 1];
  }

  /** The text of the file, or None when it is not valid UTF-8. */
  function ReadText(data: seq<byte>): (r: Option<string>)
    ensures r.None? <==> Utf8.Decode(data).None?
    ensures r.Some? ==> '\r' !in r.value
    ensures Utf8.Decode(data).Some? && '\r' !in Utf8.Decode(data).value ==> r == Utf8.Decode(data)
  {
    match Utf8.Decode(data)
    case None => None
    case Some(s) => Some(TranslateNewlines(s))
  }

  /** Text without carriage returns, written as UTF-8, reads back as itself. */
  lemma ReadTextOfEncoding(t: string)
    requires '\r' !in t
    ensures ReadText(Utf8.Encode(t)) == Some(t)
  {
    Utf8.DecodeEncode(t);
  }

  // ---------------------------------------------------------------------
  // Grouping
  // ---------------------------------------------------------------------

  /** `LogReader._LEVEL_KEYWORDS` */
  const LevelKeywords: set<string> := {"INFO", "WARNING", "ERROR", "DEBUG", "CRITICAL"}

  /** A stripped line opens a new entry when it starts with a digit or its
      first whitespace-separated token is a level keyword. */
  predicate IsEntryStart(line: string) {
    |line| > 0 && (IsDigit(line[0]) || FirstToken(line) in LevelKeywords)
  }

  /** However the first token of a stripped line is read off, the line opens
      an entry exactly when it starts with a digit or that token is a level
      keyword. */
  lemma EntryStartByToken(line: string, t: string, lead: int)
    requires TokenAfter(line, t, lead) && |t| > 0
    requires forall i :: 0 <= i < |t| ==> !IsSpace(t[i])
    ensures IsEntryStart(line) <==> IsDigit(line[0]) || t in LevelKeywords
  {
    FirstTokenUnique(line, t, lead);
  }

  /** One turn of the grouping loop: a start line, or any line while there
      is no entry yet, opens an entry; any other line is appended to the
      last entry after a newline. */
  function AddLine(entries: seq<string>, line: string): seq<string> {
    if IsEntryStart(line) || |entries| == 0 then entries + [line]
    else entries[..|entries| - 1] + [entries[|entries| - 1] + "\n" + line]
  }

  /** One turn of the loop adds an entry exactly when the line opens one or
      there is none yet, leaves all but the last entry alone, and adds the
      line, after a newline, to the entries' joined text. */
  lemma AddLineShape(entries: seq<string>, line: string)
    ensures |AddLine(entries, line)| == if IsEntryStart(line) || |entries| == 0 then |entries| + 1 else |entries|
    ensures |entries| > 0 ==> AddLine(entries, line)[..|entries| - 1] == entries[..|entries| - 1]
  {
  }

  /** The line lands, after a newline, at the end of the entries' joined text. */
  lemma AddLineJoin(entries: seq<string>, line: string)
    ensures Join(AddLine(entries, line), "\n") == if |entries| == 0 then line else Join(entries, "\n") + "\n" + line
  {
    if |entries| == 0 {
      assert AddLine(entries, line) == [line];
    } else if IsEntryStart(line) {
      JoinSnoc(entries, line, "\n");
    } else {
      JoinMergeLast(entries, "\n", line);
    }
  }

  /** The grouping loop over stripped lines. */
  function Group(lines: seq<string>): (r: seq<string>)
    ensures |r| <= |lines|
    ensures |r| == 0 <==> |lines| == 0
    decreases |lines|
  {
    if |lines| == 0 then [] else AddLine(Group(lines[..|lines| - 1]), lines[|lines| - 1])
  }

  /** `line.rstrip()` for every raw line. */
  function StripAll(raw: seq<string>): (r: seq<string>)
    ensures |r| == |raw|
    ensures forall i :: 0 <= i < |r| ==> r[i] == RStrip(raw[i])
  {
    seq(|raw|, i requires 0 <= i < |raw| => RStrip(raw[i]))
  }

  /** The grouping loop as `read` runs it, entry list updated in place. */
  method GroupEntries(rawLines: seq<string>) returns (entries: seq<string>)
    ensures entries == Group(StripAll(rawLines))
  {
    entries := [];
    var stripped := StripAll(rawLines);
    var i := 0;
    while i < |rawLines|
      invariant 0 <= i <= |rawLines|
      invariant entries == Group(stripped[..i])
    {
      var line := RStrip(rawLines[i]);
      StepGroup(stripped, i);
      entries := AddLine(entries, line);
      i := i + 1;
    }
    assert stripped[..i] == stripped;
  }

  lemma StepGroup(lines: seq<string>, i: int)
    requires 0 <= i < |lines|
    ensures Group(lines[..i + 1]) == AddLine(Group(lines[..i]), lines[i])
  {
    assert lines[..i + 1][..i] == lines[..i];
  }

  /** Grouping loses and adds nothing: the entries joined by newlines are
      the stripped lines joined by newlines. */
  lemma {:induction false} GroupRoundTrip(lines: seq<string>)
    ensures Join(Group(lines), "\n") == Join(lines, "\n")
    decreases |lines|
  {
    if |lines| > 0 {
      var init, x := lines[..|lines| - 1], lines[|lines| - 1];
      assert lines == init + [x];
      var g := Group(init);
      GroupRoundTrip(init);
      AddLineJoin(g, x);
      if |g| == 0 {
        assert |init| == 0;
        assert lines == [x];
      } else {
        JoinSnoc(init, x, "\n");
      }
    }
  }

  /** entry begins with one of lines, and with a start line unless it is
      the first entry. */
  predicate OpenedBy(entry: string, lines: seq<string>, first: bool) {
    exists j :: 0 <= j < |lines| && StartsWith(entry, lines[j]) && (first || IsEntryStart(lines[j]))
  }

  /** Every entry begins with one of the lines; every entry after the first
      begins with a start line. */
  lemma {:induction false} EntriesOpenWithStart(lines: seq<string>)
    ensures forall i :: 0 <= i < |Group(lines)| ==> OpenedBy(Group(lines)[i], lines, i == 0)
    decreases |lines|
  {
    if |lines| > 0 {
      var init, x := lines[..|lines| - 1], lines[|lines| - 1];
      EntriesOpenWithStart(init);
      var g := Group(init);
      var r := Group(lines);
      assert r == AddLine(g, x);
      forall i | 0 <= i < |r|
        ensures OpenedBy(r[i], lines, i == 0)
      {
        if i < |g| {
          assert OpenedBy(g[i], init, i == 0);
          var j :| 0 <= j < |init| && StartsWith(g[i], init[j]) && (i == 0 || IsEntryStart(init[j]));
          assert lines[j] == init[j];
          if r[i] != g[i] {
            assert r[i] == g[i] + "\n" + x;
            assert r[i][..|init[j]|] == g[i][..|init[j]|];
          }
          assert StartsWith(r[i], lines[j]);
        } else {
          assert r[i] == x;
          assert StartsWith(x, lines[|lines| - 1]);
          assert i == 0 || IsEntryStart(x);
        }
      }
    }
  }

  /** All pieces of a sequence of blocks, in order. */
  function Flatten(blocks: seq<seq<string>>): seq<string>
    decreases |blocks|
  {
    if |blocks| == 0 then [] else Flatten(blocks[..|blocks| - 1]) + blocks[|blocks| - 1]
  }

  /** blocks cut lines into the runs that the grouping rule makes entries of:
      every block non-empty, every block after the first opened by a start
      line, and no start line inside a block. */
  predicate IsBlocking(blocks: seq<seq<string>>, lines: seq<string>) {
    && Flatten(blocks) == lines
    && (forall i :: 0 <= i < |blocks| ==> |blocks[i]| > 0)
    && (forall i :: 0 < i < |blocks| ==> IsEntryStart(blocks[i][0]))
    && (forall i, j :: 0 <= i < |blocks| && 0 < j < |blocks[i]| ==> !IsEntryStart(blocks[i][j]))
  }

  /** entries are the blocks, each joined with newlines, of a cut of lines. */
  predicate Cuts(entries: seq<string>, blocks: seq<seq<string>>, lines: seq<string>) {
    && IsBlocking(blocks, lines)
    && |entries| == |blocks|
    && (forall i :: 0 <= i < |blocks| ==> entries[i] == Join(blocks[i], "\n"))
  }

  lemma CutsOpen(g: seq<string>, bs: seq<seq<string>>, lines: seq<string>, x: string)
    requires Cuts(g, bs, lines)
    requires IsEntryStart(x) || |g| == 0
    ensures Cuts(AddLine(g, x), bs + [[x]], lines + [x])
  {
    var nb := bs + [[x]];
    assert nb[..|bs|] == bs;
    assert forall i :: 0 <= i < |bs| ==> nb[i] == bs[i];
  }

  lemma FlattenSnoc(bs: seq<seq<string>>, b: seq<string>)
    ensures Flatten(bs + [b]) == Flatten(bs) + b
  {
    assert (bs + [b])[..|bs|] == bs;
  }

  lemma ExtendFlatten(init: seq<seq<string>>, last: seq<string>, x: string)
    ensures Flatten(init + [last + [x]]) == Flatten(init + [last]) + [x]
  {
    FlattenSnoc(init, last + [x]);
    FlattenSnoc(init, last);
  }

  lemma SplitLast(bs: seq<seq<string>>)
    requires |bs| > 0
    ensures bs == bs[..|bs| - 1] + [bs[|bs| - 1]]
  {
  }

  lemma ExtendShape(bs: seq<seq<string>>, lines: seq<string>, x: string)
    requires IsBlocking(bs, lines)
    requires |bs| > 0 && !IsEntryStart(x)
    ensures var nb := bs[..|bs| - 1] + [bs[|bs| - 1] + [x]];
      && (forall i :: 0 <= i < |nb| ==> |nb[i]| > 0)
      && (forall i :: 0 < i < |nb| ==> IsEntryStart(nb[i][0]))
      && (forall i, j :: 0 <= i < |nb| && 0 < j < |nb[i]| ==> !IsEntryStart(nb[i][j]))
  {
    var k := |bs|;
    var last := bs[k - 1] + [x];
    var nb := bs[..k - 1] + [last];
    assert forall i :: 0 <= i < k - 1 ==> nb[i] == bs[i];
    assert nb[k - 1] == last;
    assert forall j :: 0 <= j < |last| - 1 ==> last[j] == bs[k - 1][j];
  }

  lemma BlockingMerge(bs: seq<seq<string>>, lines: seq<string>, x: string)
    requires IsBlocking(bs, lines)
    requires |bs| > 0 && !IsEntryStart(x)
    ensures IsBlocking(bs[..|bs| - 1] + [bs[|bs| - 1] + [x]], lines + [x])
  {
    ExtendFlatten(bs[..|bs| - 1], bs[|bs| - 1], x);
    SplitLast(bs);
    ExtendShape(bs, lines, x);
  }

  lemma CutsMerge(g: seq<string>, bs: seq<seq<string>>, lines: seq<string>, x: string)
    requires Cuts(g, bs, lines)
    requires |g| > 0 && !IsEntryStart(x)
    ensures Cuts(g[..|g| - 1] + [g[|g| - 1] + "\n" + x], bs[..|bs| - 1] + [bs[|bs| - 1] + [x]], lines + [x])
  {
    var k := |bs|;
    var nb := bs[..k - 1] + [bs[k - 1] + [x]];
    BlockingMerge(bs, lines, x);
    JoinSnoc(bs[k - 1], x, "\n");
    var r := g[..k - 1] + [g[k - 1] + "\n" + x];
    assert forall i :: 0 <= i < k - 1 ==> r[i] == g[i] && nb[i] == bs[i];
  }

  lemma CutsExtend(g: seq<string>, bs: seq<seq<string>>, lines: seq<string>, x: string)
    requires Cuts(g, bs, lines)
    requires |g| > 0 && !IsEntryStart(x)
    ensures Cuts(AddLine(g, x), bs[..|bs| - 1] + [bs[|bs| - 1] + [x]], lines + [x])
  {
    CutsMerge(g, bs, lines, x);
  }

  /** The entries are exactly the blocks of a cut of the lines, each joined
      with newlines. */
  lemma {:induction false} GroupIsBlocking(lines: seq<string>) returns (blocks: seq<seq<string>>)
    ensures IsBlocking(blocks, lines)
    ensures |Group(lines)| == |blocks|
    ensures forall i :: 0 <= i < |blocks| ==> Group(lines)[i] == Join(blocks[i], "\n")
    decreases |lines|
  {
    if |lines| == 0 {
      return [];
    }
    var init, x := lines[..|lines| - 1], lines[|lines| - 1];
    assert lines == init + [x];
    var bs := GroupIsBlocking(init);
    var g := Group(init);
    assert Group(lines) == AddLine(g, x);
    if IsEntryStart(x) || |g| == 0 {
      blocks := bs + [[x]];
      CutsOpen(g, bs, init, x);
    } else {
      blocks := bs[..|bs| - 1] + [bs[|bs| - 1] + [x]];
      CutsExtend(g, bs, init, x);
    }
  }

  /** Lines read from a file carry no newline once stripped. */
  lemma StrippedLineHasNoNewline(line: string)
    requires |line| > 0 && '\n' !in line[..|line| - 1]
    ensures '\n' !in RStrip(line)
  {
    var r := RStrip(line);
    var body := line[..|line| - 1];
    assert IsSpace('\n');
    assert r == line[..|r|];
    forall k | 0 <= k < |r| ensures r[k] != '\n' {
      if k < |line| - 1 {
        assert r[k] == body[k];
      } else {
        assert k == |r| - 1;
      }
    }
  }

  /** The entries of a file's text. */
  function EntriesOf(text: string): seq<string> {
    Group(StripAll(ReadLines(text)))
  }

  /** For a file's text, splitting each entry at its newlines gives back
      the run of consecutive stripped lines it was built from. */
  lemma EntriesSplitBack(text: string) returns (blocks: seq<seq<string>>)
    ensures IsBlocking(blocks, StripAll(ReadLines(text)))
    ensures |EntriesOf(text)| == |blocks|
    ensures forall i :: 0 <= i < |blocks| ==> SplitOn(EntriesOf(text)[i], '\n') == blocks[i]
  {
    var raw := ReadLines(text);
    var lines := StripAll(raw);
    forall i | 0 <= i < |lines| ensures '\n' !in lines[i] {
      StrippedLineHasNoNewline(raw[i]);
    }
    blocks := GroupIsBlocking(lines);
    forall i | 0 <= i < |blocks| ensures SplitOn(EntriesOf(text)[i], '\n') == blocks[i] {
      forall j | 0 <= j < |blocks[i]| ensures '\n' !in blocks[i][j] {
        FlattenMember(blocks, i, j);
      }
      SplitJoin.SplitOnJoin(blocks[i], '\n');
    }
  }

  lemma {:induction false} FlattenMember(blocks: seq<seq<string>>, i: int, j: int)
    requires 0 <= i < |blocks| && 0 <= j < |blocks[i]|
    ensures blocks[i][j] in Flatten(blocks)
    decreases |blocks|
  {
    if i < |blocks| - 1 {
      FlattenMember(blocks[..|blocks| - 1], i, j);
    }
  }

  // ---------------------------------------------------------------------
  // Filtering
  // ---------------------------------------------------------------------

  /** a is b with some elements left out, order kept. */
  predicate IsSubsequence(a: seq<string>, b: seq<string>)
    decreases |b|
  {
    |a| == 0 || (|b| > 0 && ((a[0] == b[0] && IsSubsequence(a[1..], b[1..])) || IsSubsequence(a, b[1..])))
  }

  /** `[e for e in xs if keep(e)]` */
  function Filter(xs: seq<string>, keep: string -> bool): (r: seq<string>)
    ensures IsSubsequence(r, xs)
    ensures forall e :: e in r <==> e in xs && keep(e)
    ensures |r| <= |xs|
    ensures forall e :: multiset(r)[e] == if keep(e) then multiset(xs)[e] else 0
    decreases |xs|
  {
    if |xs| == 0 then []
    else
      assert xs == [xs[0]] + xs[1..];
      if keep(xs[0]) then [xs[0]] + Filter(xs[1..], keep)
      else Filter(xs[1..], keep)
  }

  /** Every sequence is a subsequence of itself. */
  lemma {:induction false} SubsequenceOfSelf(xs: seq<string>)
    ensures IsSubsequence(xs, xs)
    decreases |xs|
  {
    if |xs| > 0 {
      SubsequenceOfSelf(xs[1..]);
    }
  }

  /** Filtering twice keeps what passes both tests. */
  lemma {:induction false} FilterFilter(xs: seq<string>, p: string -> bool, q: string -> bool)
    ensures Filter(Filter(xs, p), q) == Filter(xs, e => p(e) && q(e))
    decreases |xs|
  {
    if |xs| > 0 {
      FilterFilter(xs[1..], p, q);
      if p(xs[0]) {
        assert Filter(xs, p)[1..] == Filter(xs[1..], p);
      }
    }
  }

  /** Filters with tests that agree everywhere agree. */
  lemma {:induction false} FilterExt(xs: seq<string>, p: string -> bool, q: string -> bool)
    requires forall e :: p(e) == q(e)
    ensures Filter(xs, p) == Filter(xs, q)
    decreases |xs|
  {
    if |xs| > 0 {
      FilterExt(xs[1..], p, q);
    }
  }

  /** A filter whose test every element passes changes nothing. */
  lemma {:induction false} FilterKeepsAll(xs: seq<string>, keep: string -> bool)
    requires forall e :: e in xs ==> keep(e)
    ensures Filter(xs, keep) == xs
    decreases |xs|
  {
    if |xs| > 0 {
      assert xs[0] in xs;
      FilterKeepsAll(xs[1..], keep);
    }
  }

  /** `upper in e` with `upper = level.upper()` */
  predicate MatchesLevel(entry: string, level: string) {
    Contains(entry, Upper(level))
  }

  /** `lower in e.lower()` with `lower = search.lower()` */
  predicate MatchesSearch(entry: string, search: string) {
    Contains(Lower(entry), Lower(search))
  }

  /** The level test ignores the case of the level asked for. */
  lemma LevelIgnoresCase(entry: string, level: string)
    ensures MatchesLevel(entry, Lower(level)) <==> MatchesLevel(entry, level)
  {
    UpperOfLower(level);
  }

  /** The search ignores case on both sides, and finds any text the entry
      holds as written. */
  lemma SearchIgnoresCase(entry: string, search: string)
    ensures MatchesSearch(Upper(entry), Upper(search)) <==> MatchesSearch(entry, search)
    ensures Contains(entry, search) ==> MatchesSearch(entry, search)
  {
    LowerOfUpper(entry);
    LowerOfUpper(search);
    if Contains(entry, search) {
      ContainsLower(entry, search);
    }
  }

  /** `if level:` keep the entries holding the upper-cased level, in order,
      each as often as before; an empty level keeps every entry. */
  function LevelFilter(entries: seq<string>, level: string): (r: seq<string>)
    ensures level == "" ==> r == entries
    ensures IsSubsequence(r, entries)
    ensures forall e :: multiset(r)[e] == if level == "" || MatchesLevel(e, level) then multiset(entries)[e] else 0
  {
    SubsequenceOfSelf(entries);
    if level == "" then entries else Filter(entries, e => MatchesLevel(e, level))
  }

  /** `if search:` keep the entries holding the search text, case ignored,
      in order, each as often as before; an empty search keeps every entry. */
  function SearchFilter(entries: seq<string>, search: string): (r: seq<string>)
    ensures search == "" ==> r == entries
    ensures IsSubsequence(r, entries)
    ensures forall e :: multiset(r)[e] == if search == "" || MatchesSearch(e, search) then multiset(entries)[e] else 0
  {
    SubsequenceOfSelf(entries);
    if search == "" then entries else Filter(entries, e => MatchesSearch(e, search))
  }

  /** What both filters together let through. */
  predicate Selected(entry: string, level: string, search: string) {
    (level == "" || MatchesLevel(entry, level)) && (search == "" || MatchesSearch(entry, search))
  }

  /** The two filters applied one after the other keep exactly the entries
      that pass both, in order, whichever runs first; an empty level or
      search passes everything through. */
  lemma FiltersIntersect(entries: seq<string>, level: string, search: string)
    ensures SearchFilter(LevelFilter(entries, level), search) == Filter(entries, e => Selected(e, level, search))
    ensures LevelFilter(SearchFilter(entries, search), level) == Filter(entries, e => Selected(e, level, search))
  {
    var lv := e => MatchesLevel(e, level);
    var sr := e => MatchesSearch(e, search);
    var both := e => Selected(e, level, search);
    if level == "" && search == "" {
      FilterKeepsAll(entries, both);
    } else if level == "" {
      FilterExt(entries, both, sr);
    } else if search == "" {
      FilterExt(entries, both, lv);
    } else {
      FilterFilter(entries, lv, sr);
      FilterFilter(entries, sr, lv);
      FilterExt(entries, both, e => lv(e) && sr(e));
      FilterExt(entries, both, e => sr(e) && lv(e));
    }
  }

  // ---------------------------------------------------------------------
  // Counting and trimming
  // ---------------------------------------------------------------------

  /** `entries[-lines:]` when `lines > 0`, all entries otherwise. */
  function TakeLast(entries: seq<string>, lines: int): (r: seq<string>)
    ensures |r| == if 0 < lines < |entries| then lines else |entries|
    ensures entries == entries[..|entries| - |r|] + r
  {
    if 0 < lines < |entries| then entries[|entries| - lines..] else entries
  }

  /** The dictionary `read` returns; `error` is present only when the file
      cannot be resolved. */
  datatype ReadResult = ReadResult(lines: seq<string>, total: nat, error: Option<string>)

  const InvalidFileMessage: string := "Invalid or missing file"

  /** The single synthetic line for an unreadable file. The text of the
      exception after the prefix is not modelled. */
  const ReadErrorLine: string := "Error reading log file: invalid UTF-8 data"

  /** The entries of a text that pass the filters. */
  function Matching(text: string, level: string, search: string): seq<string> {
    SearchFilter(LevelFilter(EntriesOf(text), level), search)
  }

  /** What `read` returns for a resolved file with the given contents. */
  function ReadData(data: seq<byte>, lines: int, level: string, search: string): (r: ReadResult)
    ensures r.error.None?
    ensures ReadText(data).None? ==> r == ReadResult([ReadErrorLine], 0, None)
    ensures ReadText(data).Some? ==>
      var all := Matching(ReadText(data).value, level, search);
      && r.total == |all|
      && |r.lines| == (if 0 < lines < r.total then lines else r.total)
      && all == all[..r.total - |r.lines|] + r.lines
  {
    match ReadText(data)
    case None => ReadResult([ReadErrorLine], 0, None)
    case Some(text) =>
      var entries := Matching(text, level, search);
      ReadResult(TakeLast(entries, lines), |entries|, None)
  }

  /** Every line `read` returns from a file is a whole entry of it that
      passes both filters. */
  lemma ReadDataSelects(data: seq<byte>, lines: int, level: string, search: string)
    requires ReadText(data).Some?
    ensures forall e :: e in ReadData(data, lines, level, search).lines ==>
      e in EntriesOf(ReadText(data).value) && Selected(e, level, search)
  {
    var entries := EntriesOf(ReadText(data).value);
    FiltersIntersect(entries, level, search);
    var r := ReadData(data, lines, level, search);
    var all := Matching(ReadText(data).value, level, search);
    forall e | e in r.lines ensures e in all {
      assert all == all[..r.total - |r.lines|] + r.lines;
    }
  }

  /** `LogReader.read(file, lines=..., level=..., search=...)`: an unresolvable
      name gives the error and nothing else; a resolved one is read. */
  function Read(dir: LogDir, fs: FileSystem, realpath: string -> string,
                file: string, lines: int, level: string, search: string): (r: ReadResult)
    ensures r.error.Some? <==> SafeResolve(dir, fs, realpath, file).None?
    ensures r.error.Some? ==> r == ReadResult([], 0, Some(InvalidFileMessage))
    ensures r.error.None? ==>
      r == ReadData(fs[SafeResolve(dir, fs, realpath, file).value].data, lines, level, search)
  {
    match SafeResolve(dir, fs, realpath, file)
    case None => ReadResult([], 0, Some(InvalidFileMessage))
    case Some(path) => ReadData(fs[path].data, lines, level, search)
  }

  /** Reading a cleared file finds nothing to show, and no error. */
  lemma ReadAfterClear(dir: LogDir, fs: FileSystem, realpath: string -> string,
                       file: string, lines: int, level: string, search: string)
    requires ClearFile(dir, fs, realpath, file).ok
    ensures Read(dir, ClearFile(dir, fs, realpath, file).fs, realpath, file, lines, level, search)
         == ReadResult([], 0, None)
  {
    var fs' := ClearFile(dir, fs, realpath, file).fs;
    var p := SafeResolve(dir, fs, realpath, file).value;
    assert Resolvable(dir, fs', realpath, file);
    assert SafeResolve(dir, fs', realpath, file) == Some(p);
    assert ReadText([]) == Some("");
    assert ReadLines("") == [];
  }

  /** Reading a deleted file reports it missing. */
  lemma ReadAfterDelete(dir: LogDir, fs: FileSystem, realpath: string -> string,
                        file: string, lines: int, level: string, search: string)
    requires DeleteFile(dir, fs, realpath, file).ok
    ensures Read(dir, DeleteFile(dir, fs, realpath, file).fs, realpath, file, lines, level, search)
         == ReadResult([], 0, Some(InvalidFileMessage))
  {
    var fs' := DeleteFile(dir, fs, realpath, file).fs;
    assert !Resolvable(dir, fs', realpath, file);
  }
}

=== FILE: posix_path.dfy ===
/**
 * The parts of Python's `posixpath` that the log directory relies on:
 * `normpath`, `isabs`, `join` and `abspath`.
 */
module PosixPath {
  import opened Text

  /** `os.path.isabs(p)` */
  predicate IsAbs(p: string) {
    StartsWith(p, "/")
  }

  /** How many leading slashes `normpath` keeps: POSIX gives exactly two
      leading slashes a meaning of their own; one, or three or more, mean
      the root. */
  function InitialSlashes(p: string): (k: nat)
    ensures k <= 2
    ensures k > 0 <==> IsAbs(p)
  {
    if !StartsWith(p, "/") then 0
    else if StartsWith(p, "//") && !StartsWith(p, "///") then 2
    else 1
  }

  /** One step of the component loop of `normpath`: empty and `.` components
      vanish, `..` cancels the previous component when there is one that is
      not itself `..`, and is dropped at the root of an absolute path. */
  function Push(acc: seq<string>, comp: string, rooted: bool): seq<string> {
    if comp == "" || comp == "." then acc
    else if comp != ".." || (!rooted && |acc| == 0) || (|acc| > 0 && acc[|acc| - 1] == "..") then acc + [comp]
    else if |acc| > 0 then acc[..|acc| - 1]
    else acc
  }

  /** The component loop over all components, left to right. */
  function Collapse(comps: seq<string>, rooted: bool): seq<string>
    decreases |comps|
  {
    if |comps| == 0 then [] else Push(Collapse(comps[..|comps| - 1], rooted), comps[|comps| - 1], rooted)
  }

  /** Components that survive normalisation: non-empty, not `.`, slash-free. */
  predicate Clean(comps: seq<string>) {
    forall i :: 0 <= i < |comps| ==> comps[i] != "" && comps[i] != "." && '/' !in comps[i]
  }

  /** Every `..` stands in a leading run of `..` components. */
  predicate ParentsLead(comps: seq<string>) {
    forall i, j :: 0 <= i < j < |comps| && comps[j] == ".." ==> comps[i] == ".."
  }

  predicate NoParent(comps: seq<string>) {
    forall i :: 0 <= i < |comps| ==> comps[i] != ".."
  }

  /** The component list `normpath` keeps for p. */
  function Components(p: string): seq<string> {
    Collapse(SplitOn(p, '/'), IsAbs(p))
  }

  /** `os.path.normpath(p)` on POSIX. */
  function NormPath(p: string): (r: string)
    ensures |r| > 0
    ensures IsAbs(r) <==> IsAbs(p)
  {
    var comps := Components(p);
    ComponentsShape(p);
    assert |comps| > 0 ==> StartsWith(Join(comps, "/"), comps[0]) by {
      if |comps| > 0 {
        JoinStartsWithFirst(comps, "/");
      }
    }
    assert |comps| > 0 ==> comps[0] != "" && comps[0][0] != '/';
    assert !IsAbs(".") by {
      assert "."[..1] == ".";
    }
    if |p| == 0 then "."
    else
      var s := seq(InitialSlashes(p), _ => '/') + Join(Components(p), "/");
      if s == "" then "." else s
  }

  lemma {:induction false} CollapseShape(comps: seq<string>, rooted: bool)
    requires forall i :: 0 <= i < |comps| ==> '/' !in comps[i]
    ensures Clean(Collapse(comps, rooted))
    ensures ParentsLead(Collapse(comps, rooted))
    ensures rooted ==> NoParent(Collapse(comps, rooted))
    decreases |comps|
  {
    if |comps| > 0 {
      var acc := Collapse(comps[..|comps| - 1], rooted);
      CollapseShape(comps[..|comps| - 1], rooted);
      var comp := comps[|comps| - 1];
      var r := Push(acc, comp, rooted);
      if comp == "" || comp == "." {
      } else if comp != ".." {
        assert r == acc + [comp];
      } else if (!rooted && |acc| == 0) || (|acc| > 0 && acc[|acc| - 1] == "..") {
        assert r == acc + [comp];
        assert forall i :: 0 <= i < |acc| ==> acc[i] == "..";
      }
    }
  }

  /** The shape of a normalised path: its components are clean; an absolute
      path has no `..` component and a relative one has them only as a
      leading run. */
  lemma ComponentsShape(p: string)
    ensures Clean(Components(p)) && ParentsLead(Components(p))
    ensures IsAbs(p) ==> NoParent(Components(p))
  {
    CollapseShape(SplitOn(p, '/'), IsAbs(p));
  }

  lemma {:induction false} JoinStartsWithFirst(xs: seq<string>, sep: string)
    requires |xs| > 0
    ensures StartsWith(Join(xs, sep), xs[0])
  {
    if |xs| > 1 {
      assert Join(xs, sep) == xs[0] + (sep + Join(xs[1..], sep));
    }
  }

  /** A relative path whose first kept component is `..` normalises to text
      starting with "..". */
  lemma LeadingParentShows(p: string)
    requires !IsAbs(p) && |Components(p)| > 0 && Components(p)[0] == ".."
    ensures StartsWith(NormPath(p), "..")
  {
    JoinStartsWithFirst(Components(p), "/");
  }

  /** The `..` check of `_safe_resolve` is enough: a normalised relative
      path that does not start with ".." is the slash-join of clean
      components none of which is `..`. */
  lemma NormalizedRelativeHasNoParent(p: string)
    requires !IsAbs(NormPath(p)) && !StartsWith(NormPath(p), "..")
    ensures !IsAbs(p)
    ensures NormPath(p) == "." || NormPath(p) == Join(Components(p), "/")
    ensures Clean(Components(p)) && NoParent(Components(p))
  {
    ComponentsShape(p);
    if |Components(p)| > 0 && Components(p)[0] == ".." {
      LeadingParentShows(p);
    }
  }

  /** `os.path.join(a, b)` */
  function JoinPath(a: string, b: string): (r: string)
    ensures IsAbs(b) ==> r == b
    ensures !IsAbs(b) ==> r == a + b || r == a + "/" + b
    ensures !IsAbs(b) && a != "" ==> r[|r| - |b| - 1] == '/'
    ensures !IsAbs(b) && (a == "" || a[|a| - 1] == '/') ==> r == a + b
    ensures !IsAbs(b) && a != "" && a[|a| - 1] != '/' ==> r == a + "/" + b
    ensures IsAbs(a) || IsAbs(b) ==> IsAbs(r)
  {
    if IsAbs(b) then b
    else if a == "" || a[|a| - 1] == '/' then a + b
    else a + "/" + b
  }

  /** `os.path.abspath(p)` with the working directory passed in. */
  function AbsPath(cwd: string, p: string): (r: string)
    ensures IsAbs(cwd) ==> IsAbs(r)
    ensures IsAbs(p) ==> r == NormPath(p)
  {
    NormPath(if IsAbs(p) then p else JoinPath(cwd, p))
  }
}

=== FILE: template.dfy ===
/**
 * Placeholder substitution in the page template: `{{NAME}}` marks, with
 * NAME made of upper-case letters, digits and underscores, are replaced one
 * name at a time by Python's `str.replace`.
 *
 * `Fill` is the reference reading: one left-to-right pass that puts each
 * assigned mark's value in place and leaves unassigned marks alone. The
 * lemmas show that the sequence of `replace` calls computes exactly that on
 * a well-formed template, as long as no value placed before the last call
 * contains a `{`.
 */
module Template {
  import opened Text

  // ---------------------------------------------------------------------
  // str.replace
  // ---------------------------------------------------------------------

  /** `s.replace(pat, repl)`: a left-to-right scan that replaces every
      non-overlapping occurrence and does not rescan what it inserted. */
  function ReplaceAll(s: string, pat: string, repl: string): (r: string)
    requires |pat| > 0
    ensures !Contains(s, pat) ==> r == s
    decreases |s|
  {
    if |s| == 0 then ""
    else if StartsWith(s, pat) then repl + ReplaceAll(s[|pat|..], pat, repl)
    else [s[0]] + ReplaceAll(s[1..], pat, repl)
  }

  /** No occurrence of p starts at any of the first k positions of x. */
  predicate NoMatchBefore(x: string, k: int, p: string) {
    forall i :: 0 <= i < k && i <= |x| ==> !StartsWith(x[i..], p)
  }

  /** Dropping the first character of a front part with no occurrence. */
  lemma NoMatchShift(a: string, b: string, p: string)
    requires |a| > 0 && NoMatchBefore(a + b, |a|, p)
    ensures !StartsWith(a + b, p)
    ensures (a + b)[1..] == a[1..] + b
    ensures NoMatchBefore(a[1..] + b, |a| - 1, p)
  {
    assert (a + b)[0..] == a + b;
    assert (a + b)[1..] == a[1..] + b;
    forall i | 0 <= i < |a| - 1 && i <= |a[1..] + b|
      ensures !StartsWith((a[1..] + b)[i..], p)
    {
      assert (a[1..] + b)[i..] == (a + b)[i + 1..];
    }
  }

  /** A front part in which no occurrence starts is copied unchanged. */
  lemma {:induction false} ReplaceSkip(a: string, b: string, p: string, repl: string)
    requires |p| > 0
    requires NoMatchBefore(a + b, |a|, p)
    ensures ReplaceAll(a + b, p, repl) == a + ReplaceAll(b, p, repl)
    decreases |a|
  {
    if |a| > 0 {
      NoMatchShift(a, b, p);
      assert (a + b)[0] == a[0];
      assert ReplaceAll(a + b, p, repl) == [a[0]] + ReplaceAll(a[1..] + b, p, repl);
      ReplaceSkip(a[1..], b, p, repl);
      assert [a[0]] + a[1..] == a;
    } else {
      assert a + b == b;
    }
  }

  /** A front part in which no occurrence starts does not contribute one. */
  lemma {:induction false} ContainsSkip(a: string, b: string, p: string)
    requires |p| > 0
    requires NoMatchBefore(a + b, |a|, p)
    ensures Contains(a + b, p) <==> Contains(b, p)
    decreases |a|
  {
    if |a| > 0 {
      NoMatchShift(a, b, p);
      assert Contains(a + b, p) == (StartsWith(a + b, p) || Contains((a + b)[1..], p));
      ContainsSkip(a[1..], b, p);
    } else {
      assert a + b == b;
    }
  }

  // ---------------------------------------------------------------------
  // Placeholders
  // ---------------------------------------------------------------------

  predicate IsNameChar(c: char) {
    ('A' <= c <= 'Z') || ('0' <= c <= '9') || c == '_'
  }

  predicate IsName(n: string) {
    |n| > 0 && forall i :: 0 <= i < |n| ==> IsNameChar(n[i])
  }

  /** The mark `{{NAME}}`. */
  function Placeholder(name: string): (r: string)
    ensures |r| == |name| + 4 && r[0] == '{'
  {
    "{{" + name + "}}"
  }

  /** The longest run of name characters at the front of s. */
  function NameRun(s: string): (r: string)
    ensures StartsWith(s, r)
    ensures forall i :: 0 <= i < |r| ==> IsNameChar(r[i])
    ensures |r| == |s| || !IsNameChar(s[|r|])
    decreases |s|
  {
    if |s| > 0 && IsNameChar(s[0]) then [s[0]] + NameRun(s[1..]) else ""
  }

  /** s starts with a mark. */
  predicate HoleAt(s: string) {
    && StartsWith(s, "{{")
    && |NameRun(s[2..])| > 0
    && StartsWith(s[2 + |NameRun(s[2..])|..], "}}")
  }

  function HoleName(s: string): (r: string)
    requires HoleAt(s)
    ensures IsName(r) && |r| + 4 <= |s| && s == Placeholder(r) + s[|r| + 4..]
  {
    var n := NameRun(s[2..]);
    assert s[..2] == "{{" && s[2..][..|n|] == n && s[2 + |n|..][..2] == "}}";
    assert s == s[..2] + s[2..][..|n|] + s[2 + |n|..][..2] + s[|n| + 4..];
    n
  }

  lemma {:induction false} NameRunOf(n: string, t: string)
    requires forall i :: 0 <= i < |n| ==> IsNameChar(n[i])
    requires |t| == 0 || !IsNameChar(t[0])
    ensures NameRun(n + t) == n
    decreases |n|
  {
    if |n| > 0 {
      assert (n + t)[1..] == n[1..] + t;
      NameRunOf(n[1..], t);
      assert [n[0]] + n[1..] == n;
    } else {
      assert n + t == t;
    }
  }

  /** A mark followed by anything is read back as that mark. */
  lemma PlaceholderIsHole(n: string, t: string)
    requires IsName(n)
    ensures HoleAt(Placeholder(n) + t) && HoleName(Placeholder(n) + t) == n
  {
    var s := Placeholder(n) + t;
    assert s[2..] == n + ("}}" + t);
    NameRunOf(n, "}}" + t);
    assert s[2 + |n|..] == "}}" + t;
  }

  /** A template in which every `{{` opens a mark: a lone `{` is fine,
      `{{` not followed by NAME and `}}` is not. */
  predicate WellFormed(s: string)
    decreases |s|
  {
    if |s| == 0 then true
    else if HoleAt(s) then WellFormed(s[|HoleName(s)| + 4..])
    else !StartsWith(s, "{{") && WellFormed(s[1..])
  }

  /** The reference substitution: each mark whose name m assigns becomes its
      value, every other character and mark stays. */
  function Fill(s: string, m: map<string, string>): string
    decreases |s|
  {
    if |s| == 0 then ""
    else if HoleAt(s) then
      var n := HoleName(s);
      (if n in m then m[n] else Placeholder(n)) + Fill(s[|n| + 4..], m)
    else [s[0]] + Fill(s[1..], m)
  }

  /** With nothing assigned the template comes back unchanged. */
  lemma {:induction false} FillNothing(s: string)
    ensures Fill(s, map[]) == s
    decreases |s|
  {
    if |s| > 0 {
      if HoleAt(s) {
        FillNothing(s[|HoleName(s)| + 4..]);
      } else {
        FillNothing(s[1..]);
        assert [s[0]] + s[1..] == s;
      }
    }
  }

  /** Every value of m is free of `{`. */
  predicate BraceFree(m: map<string, string>) {
    forall k :: k in m ==> '{' !in m[k]
  }

  lemma BraceFreeNoMatch(a: string, b: string, p: string)
    requires '{' !in a && |p| > 0 && p[0] == '{'
    ensures NoMatchBefore(a + b, |a|, p)
  {
    forall i | 0 <= i < |a| && i <= |a + b| ensures !StartsWith((a + b)[i..], p) {
      assert (a + b)[i..][0] == a[i];
    }
  }

  /** Only the mark for n starts with the mark for n. */
  lemma SameMark(k: string, n: string, b: string)
    requires IsName(k) && IsName(n)
    requires StartsWith(Placeholder(k) + b, Placeholder(n))
    ensures k == n
  {
    var x := Placeholder(k) + b;
    var rest := x[|n| + 4..];
    assert x == Placeholder(n) + rest;
    assert x[2..] == k + ("}}" + b);
    assert x[2..] == n + ("}}" + rest);
    NameRunOf(k, "}}" + b);
    NameRunOf(n, "}}" + rest);
  }

  /** A mark for another name contains no start of the mark for N. */
  lemma OtherHoleNoMatch(k: string, n: string, b: string)
    requires IsName(k) && IsName(n) && k != n
    ensures NoMatchBefore(Placeholder(k) + b, |Placeholder(k)|, Placeholder(n))
  {
    var x := Placeholder(k) + b;
    var p := Placeholder(n);
    forall i | 0 <= i < |Placeholder(k)| && i <= |x| ensures !StartsWith(x[i..], p) {
      if i == 0 {
        if StartsWith(x, p) {
          SameMark(k, n, b);
        }
      } else if i == 1 {
        assert x[2] == k[0];
        assert x[i..][1] == x[2];
      } else if i < 2 + |k| {
        assert x[i] == k[i - 2];
        assert x[i..][0] == x[i];
      } else {
        assert x[i] == '}';
        assert x[i..][0] == x[i];
      }
    }
  }

  /** A character that does not open a mark starts no mark in the output. */
  lemma LiteralNoMatch(s: string, m: map<string, string>, p: string)
    requires |s| > 0 && WellFormed(s) && !HoleAt(s)
    requires |p| >= 2 && p[..2] == "{{"
    ensures NoMatchBefore([s[0]] + Fill(s[1..], m), 1, p)
  {
    var x := [s[0]] + Fill(s[1..], m);
    if s[0] == '{' && |s| > 1 {
      assert s[1] != '{';
      assert !HoleAt(s[1..]);
      assert x[1] == s[1];
      assert x[0..][1] != p[1];
    } else if s[0] == '{' {
      assert |x| == 1;
    } else {
      assert x[0..][0] != p[0];
    }
  }

  // ---------------------------------------------------------------------
  // Sequential replacement is the single pass
  // ---------------------------------------------------------------------

  /** The step of ReplaceFill for a template that opens with the mark
      being replaced. */
  lemma ReplaceFillHere(s: string, m: map<string, string>, n: string, v: string)
    requires HoleAt(s) && HoleName(s) == n && n !in m
    requires ReplaceAll(Fill(s[|n| + 4..], m), Placeholder(n), v) == Fill(s[|n| + 4..], m[n := v])
    ensures ReplaceAll(Fill(s, m), Placeholder(n), v) == Fill(s, m[n := v])
  {
    var p := Placeholder(n);
    var rest := Fill(s[|n| + 4..], m);
    assert Fill(s, m) == p + rest;
    assert StartsWith(p + rest, p) && (p + rest)[|p|..] == rest;
  }

  /** The step of ReplaceFill for a template that opens with another mark
      or an ordinary character: the first piece of output is copied. */
  lemma ReplaceFillSkip(front: string, rest: string, rest': string, n: string, v: string)
    requires NoMatchBefore(front + rest, |front|, Placeholder(n))
    requires ReplaceAll(rest, Placeholder(n), v) == rest'
    ensures ReplaceAll(front + rest, Placeholder(n), v) == front + rest'
  {
    ReplaceSkip(front, rest, Placeholder(n), v);
  }

  /** Replacing the mark of an unassigned name n in a filled well-formed
      template is the same as filling it with n assigned too. */
  lemma {:induction false} ReplaceFill(s: string, m: map<string, string>, n: string, v: string)
    requires WellFormed(s) && IsName(n) && n !in m && BraceFree(m)
    ensures ReplaceAll(Fill(s, m), Placeholder(n), v) == Fill(s, m[n := v])
    decreases |s|
  {
    var p := Placeholder(n);
    var m' := m[n := v];
    if |s| > 0 {
      if HoleAt(s) {
        var k := HoleName(s);
        var t := s[|k| + 4..];
        ReplaceFill(t, m, n, v);
        if k == n {
          ReplaceFillHere(s, m, n, v);
        } else if k in m {
          BraceFreeNoMatch(m[k], Fill(t, m), p);
          ReplaceFillSkip(m[k], Fill(t, m), Fill(t, m'), n, v);
          assert Fill(s, m') == m'[k] + Fill(t, m');
        } else {
          OtherHoleNoMatch(k, n, Fill(t, m));
          ReplaceFillSkip(Placeholder(k), Fill(t, m), Fill(t, m'), n, v);
          assert Fill(s, m') == Placeholder(k) + Fill(t, m');
        }
      } else {
        LiteralNoMatch(s, m, p);
        ReplaceFill(s[1..], m, n, v);
        ReplaceFillSkip([s[0]], Fill(s[1..], m), Fill(s[1..], m'), n, v);
      }
    }
  }

  /** Once a name is assigned a `{`-free value, its mark is gone. */
  lemma {:induction false} FillRemoves(s: string, m: map<string, string>, n: string)
    requires WellFormed(s) && IsName(n) && n in m && BraceFree(m)
    ensures !Contains(Fill(s, m), Placeholder(n))
    decreases |s|
  {
    var p := Placeholder(n);
    if |s| == 0 {
      assert !StartsWith("", p);
    } else if HoleAt(s) {
      var k := HoleName(s);
      var t := s[|k| + 4..];
      FillRemoves(t, m, n);
      if k in m {
        BraceFreeNoMatch(m[k], Fill(t, m), p);
        ContainsSkip(m[k], Fill(t, m), p);
      } else {
        OtherHoleNoMatch(k, n, Fill(t, m));
        ContainsSkip(Placeholder(k), Fill(t, m), p);
      }
    } else {
      LiteralNoMatch(s, m, p);
      ContainsSkip([s[0]], Fill(s[1..], m), p);
      FillRemoves(s[1..], m, n);
    }
  }

  /** `for name, value in pairs: s = s.replace("{{" + name + "}}", value)` */
  function ReplaceSeq(s: string, pairs: seq<(string, string)>): string
    decreases |pairs|
  {
    if |pairs| == 0 then s
    else ReplaceSeq(ReplaceAll(s, Placeholder(pairs[0].0), pairs[0].1), pairs[1..])
  }

  /** A text with no `{{` in it holds no mark, so the replace calls leave
      it as it is. */
  lemma {:induction false} ReplaceSeqWithoutMarks(s: string, pairs: seq<(string, string)>)
    requires !Contains(s, "{{")
    ensures ReplaceSeq(s, pairs) == s
    decreases |pairs|
  {
    if |pairs| > 0 {
      var p := Placeholder(pairs[0].0);
      assert p == "{{" + (pairs[0].0 + "}}");
      if Contains(s, p) {
        ContainsLonger(s, "{{", pairs[0].0 + "}}");
      }
      ReplaceSeqWithoutMarks(s, pairs[1..]);
    }
  }

  /** m with the pairs assigned in order. */
  function Assign(m: map<string, string>, pairs: seq<(string, string)>): map<string, string>
    decreases |pairs|
  {
    if |pairs| == 0 then m else Assign(m[pairs[0].0 := pairs[0].1], pairs[1..])
  }

  function Names(pairs: seq<(string, string)>): set<string> {
    set i | 0 <= i < |pairs| :: pairs[i].0
  }

  predicate Distinct(pairs: seq<(string, string)>) {
    forall i, j :: 0 <= i < j < |pairs| ==> pairs[i].0 != pairs[j].0
  }

  /** With distinct names, each name gets its pair's value and every other
      key keeps its value. */
  lemma {:induction false} AssignLookup(m: map<string, string>, pairs: seq<(string, string)>)
    requires Distinct(pairs)
    ensures Assign(m, pairs).Keys == m.Keys + Names(pairs)
    ensures forall i :: 0 <= i < |pairs| ==> Assign(m, pairs)[pairs[i].0] == pairs[i].1
    ensures forall k :: k in m && k !in Names(pairs) ==> Assign(m, pairs)[k] == m[k]
    decreases |pairs|
  {
    if |pairs| > 0 {
      var rest := pairs[1..];
      AssignLookup(m[pairs[0].0 := pairs[0].1], rest);
      assert Names(pairs) == {pairs[0].0} + Names(rest) by {
        forall x | x in Names(pairs) ensures x in {pairs[0].0} + Names(rest) {
          var i :| 0 <= i < |pairs| && pairs[i].0 == x;
          if i > 0 { assert rest[i - 1].0 == x; }
        }
        forall x | x in Names(rest) ensures x in Names(pairs) {
          var i :| 0 <= i < |rest| && rest[i].0 == x;
          assert pairs[i + 1].0 == x;
        }
      }
      assert pairs[0].0 !in Names(rest) by {
        forall i | 0 <= i < |rest| ensures rest[i].0 != pairs[0].0 {
          assert rest[i] == pairs[i + 1];
        }
      }
      forall i | 0 <= i < |pairs| ensures Assign(m, pairs)[pairs[i].0] == pairs[i].1 {
        if i > 0 { assert rest[i - 1] == pairs[i]; }
      }
    }
  }

  /** A run of replace calls on a well-formed template fills it in one
      pass: the names are distinct and unassigned so far, and every value
      but the last is free of `{` (the last is never rescanned). */
  lemma {:induction false} ReplaceSeqFill(s: string, m: map<string, string>, pairs: seq<(string, string)>)
    requires WellFormed(s) && BraceFree(m) && Distinct(pairs)
    requires forall i :: 0 <= i < |pairs| ==> IsName(pairs[i].0) && pairs[i].0 !in m
    requires forall i :: 0 <= i < |pairs| - 1 ==> '{' !in pairs[i].1
    ensures ReplaceSeq(Fill(s, m), pairs) == Fill(s, Assign(m, pairs))
    decreases |pairs|
  {
    if |pairs| > 0 {
      var (n, v) := pairs[0];
      ReplaceFill(s, m, n, v);
      var rest := pairs[1..];
      if |rest| > 0 {
        forall i | 0 <= i < |rest| ensures IsName(rest[i].0) && rest[i].0 !in m[n := v] {
          assert rest[i] == pairs[i + 1];
        }
        forall i | 0 <= i < |rest| - 1 ensures '{' !in rest[i].1 {
          assert rest[i] == pairs[i + 1];
        }
        ReplaceSeqFill(s, m[n := v], rest);
      }
    }
  }

  /** The same, starting from the template itself. */
  lemma ReplaceSeqIsFill(s: string, pairs: seq<(string, string)>)
    requires WellFormed(s) && Distinct(pairs)
    requires forall i :: 0 <= i < |pairs| ==> IsName(pairs[i].0)
    requires forall i :: 0 <= i < |pairs| - 1 ==> '{' !in pairs[i].1
    ensures ReplaceSeq(s, pairs) == Fill(s, Assign(map[], pairs))
  {
    FillNothing(s);
    ReplaceSeqFill(s, map[], pairs);
  }
}

=== FILE: text.dfy ===
/**
 * String helpers shared by the log engine, the credential decoder and the
 * page renderer. Strings are sequences of Unicode scalar values. A Python
 * `str` may also hold lone surrogates (code points U+D800 to U+DFFF), which
 * a Dafny `char` cannot, so such strings are outside this model.
 */
module Text {
  import opened Basics

  /** `s.startswith(p)` */
  predicate StartsWith(s: string, p: string) {
    |p| <= |s| && s[..|p|] == p
  }

  /** `p in s` (Python) / `s.includes(p)` (JavaScript): p occurs somewhere in s. */
  predicate Contains(s: string, p: string)
    decreases |s|
  {
    StartsWith(s, p) || (|s| > 0 && Contains(s[1..], p))
  }

  /** An occurrence of a longer text is an occurrence of its front part. */
  lemma {:induction false} ContainsLonger(s: string, p: string, q: string)
    requires Contains(s, p + q)
    ensures Contains(s, p)
    decreases |s|
  {
    if StartsWith(s, p + q) {
      assert s[..|p|] == (p + q)[..|p|] == p;
    } else {
      ContainsLonger(s[1..], p, q);
    }
  }

  // ---------------------------------------------------------------------
  // Characters
  // ---------------------------------------------------------------------

  /** Python's `str.isspace()` for one character (the whitespace that
      `str.rstrip()` and `str.split()` with no argument remove). */
  predicate IsSpace(c: char) {
    || c == '\t' || c == '\n' || c == '\U{0B}' || c == '\U{0C}' || c == '\r'
    || c == '\U{1C}' || c == '\U{1D}' || c == '\U{1E}' || c == '\U{1F}' || c == ' '
    || c == '\U{85}' || c == '\U{A0}' || c == '\U{1680}'
    || ('\U{2000}' <= c <= '\U{200A}')
    || c == '\U{2028}' || c == '\U{2029}' || c == '\U{202F}' || c == '\U{205F}'
    || c == '\U{3000}'
  }

  /** `c.isdigit()`, restricted to the ASCII digits. */
  predicate IsDigit(c: char) {
    '0' <= c <= '9'
  }

  /** `str.upper()` on ASCII letters; other characters are kept. */
  function Upper(s: string): (r: string)
    ensures |r| == |s|
  {
    seq(|s|, i requires 0 <= i < |s| =>
      if 'a' <= s[i] <= 'z' then (s[i] as int - 32) as char else s[i])
  }

  /** `str.lower()` on ASCII letters; other characters are kept. */
  function Lower(s: string): (r: string)
    ensures |r| == |s|
  {
    seq(|s|, i requires 0 <= i < |s| =>
      if 'A' <= s[i] <= 'Z' then (s[i] as int + 32) as char else s[i])
  }

  /** Lower-casing an upper-cased text is lower-casing the text itself. */
  lemma LowerOfUpper(s: string)
    ensures Lower(Upper(s)) == Lower(s)
  {
    assert forall i | 0 <= i < |s| :: Lower(Upper(s))[i] == Lower(s)[i];
  }

  /** Upper-casing a lower-cased text is upper-casing the text itself. */
  lemma UpperOfLower(s: string)
    ensures Upper(Lower(s)) == Upper(s)
  {
    assert forall i | 0 <= i < |s| :: Upper(Lower(s))[i] == Upper(s)[i];
  }

  /** Lower-casing both sides keeps every occurrence. */
  lemma {:induction false} ContainsLower(s: string, p: string)
    requires Contains(s, p)
    ensures Contains(Lower(s), Lower(p))
    decreases |s|
  {
    if StartsWith(s, p) {
      assert Lower(s)[..|p|] == Lower(s[..|p|]);
    } else {
      ContainsLower(s[1..], p);
      assert Lower(s)[1..] == Lower(s[1..]);
    }
  }

  // ---------------------------------------------------------------------
  // Stripping and splitting
  // ---------------------------------------------------------------------

  /** `s.rstrip()`: s without its trailing whitespace. The three clauses
      determine the result uniquely. */
  function RStrip(s: string): (r: string)
    ensures StartsWith(s, r)
    ensures |r| == 0 || !IsSpace(r[|r| - 1])
    ensures forall i :: |r| <= i < |s| ==> IsSpace(s[i])
  {
    if |s| == 0 || !IsSpace(s[|s| - 1]) then s else RStrip(s[..|s| - 1])
  }

  /** `s.rstrip("/")` (Python) / `s.replace(/\/+$/, '')` (JavaScript): s
      without its trailing slashes. */
  function TrimSlashes(s: string): (r: string)
    ensures StartsWith(s, r)
    ensures |r| == 0 || r[|r| - 1] != '/'
    ensures forall i :: |r| <= i < |s| ==> s[i] == '/'
    decreases |s|
  {
    if |s| > 0 && s[|s| - 1] == '/' then TrimSlashes(s[..|s| - 1]) else s
  }

  /** Strings of `str.split()` tokens: leading whitespace removed. */
  function LStrip(s: string): (r: string)
    ensures |r| <= |s| && r == s[|s| - |r|..]
    ensures |r| == 0 || !IsSpace(r[0])
    ensures forall i :: 0 <= i < |s| - |r| ==> IsSpace(s[i])
  {
    if |s| == 0 || !IsSpace(s[0]) then s else LStrip(s[1..])
  }

  /** The longest whitespace-free prefix of s. */
  function Word(s: string): (r: string)
    ensures StartsWith(s, r)
    ensures forall i :: 0 <= i < |r| ==> !IsSpace(r[i])
    ensures |r| == |s| || IsSpace(s[|r|])
  {
    if |s| == 0 || IsSpace(s[0]) then "" else [s[0]] + Word(s[1..])
  }

  /** s is `lead` whitespace characters, then t, then the end of s or a
      whitespace character. */
  predicate TokenAfter(s: string, t: string, lead: int) {
    && 0 <= lead <= |s| - |t|
    && (forall i :: 0 <= i < lead ==> IsSpace(s[i]))
    && s[lead..lead + |t|] == t
    && (lead + |t| == |s| || IsSpace(s[lead + |t|]))
  }

  /** `s.split()[0]` for a string that has at least one token: the first
      maximal run of non-whitespace characters. */
  function FirstToken(s: string): (r: string)
    ensures exists lead :: TokenAfter(s, r, lead)
    ensures forall i :: 0 <= i < |r| ==> !IsSpace(r[i])
    ensures (exists i :: 0 <= i < |s| && !IsSpace(s[i])) ==> |r| > 0
  {
    var t := LStrip(s);
    var lead := |s| - |t|;
    var w := Word(t);
    assert s[lead..lead + |w|] == t[..|w|];
    assert TokenAfter(s, w, lead);
    assert |t| > 0 ==> |w| > 0;
    assert |t| == 0 ==> forall i :: 0 <= i < |s| ==> IsSpace(s[i]);
    w
  }

  /** Lengthening the last piece by a separator and a text lengthens the
      joined text the same way. */
  lemma JoinMergeLast(xs: seq<string>, sep: string, x: string)
    requires |xs| > 0
    ensures Join(xs[..|xs| - 1] + [xs[|xs| - 1] + sep + x], sep) == Join(xs, sep) + sep + x
  {
    if |xs| == 1 {
      assert xs[..0] + [xs[0] + sep + x] == [xs[0] + sep + x];
    } else {
      var pre, last := xs[..|xs| - 1], xs[|xs| - 1];
      assert xs == pre + [last];
      JoinSnoc(pre, last + sep + x, sep);
      JoinSnoc(pre, last, sep);
    }
  }

  /** The first token is the same wherever a whitespace-free token can be
      read at the front of s. */
  lemma FirstTokenUnique(s: string, t: string, lead: int)
    requires TokenAfter(s, t, lead) && |t| > 0
    requires forall i :: 0 <= i < |t| ==> !IsSpace(t[i])
    ensures FirstToken(s) == t
  {
    var r := FirstToken(s);
    var l2 :| TokenAfter(s, r, l2);
    assert s[lead] == s[lead..lead + |t|][0] == t[0];
    assert |r| > 0 by {
      assert 0 <= lead < |s| && !IsSpace(s[lead]);
    }
    assert s[l2] == s[l2..l2 + |r|][0] == r[0];
    assert !IsSpace(s[l2]) && !IsSpace(s[lead]);
    assert l2 == lead;
    TokenLength(s, t, r, lead);
  }

  /** Two whitespace-free tokens read off at the same place are equal. */
  lemma TokenLength(s: string, t: string, r: string, lead: int)
    requires TokenAfter(s, t, lead) && TokenAfter(s, r, lead)
    requires forall i :: 0 <= i < |t| ==> !IsSpace(t[i])
    requires forall i :: 0 <= i < |r| ==> !IsSpace(r[i])
    ensures r == t
  {
    assert forall k | 0 <= k < |t| :: s[lead + k] == t[k];
    assert forall k | 0 <= k < |r| :: s[lead + k] == r[k];
    assert |r| == |t|;
  }

  /** `sep.join(xs)`. */
  function Join(xs: seq<string>, sep: string): (r: string)
    decreases |xs|
  {
    if |xs| == 0 then ""
    else if |xs| == 1 then xs[0]
    else xs[0] + sep + Join(xs[1..], sep)
  }

  /** Joining after appending one more piece adds the separator and the piece. */
  lemma {:induction false} JoinSnoc(xs: seq<string>, x: string, sep: string)
    requires |xs| > 0
    ensures Join(xs + [x], sep) == Join(xs, sep) + sep + x
    decreases |xs|
  {
    if |xs| == 1 {
      assert xs + [x] == [xs[0], x];
      assert [xs[0], x][1..] == [x];
    } else {
      assert (xs + [x])[1..] == xs[1..] + [x];
      JoinSnoc(xs[1..], x, sep);
    }
  }

  /** `s.split(c)` for a one-character separator: the pieces between the
      separators, at least one, none containing c; joining them again with c
      gives s back. */
  function SplitOn(s: string, c: char): (r: seq<string>)
    ensures |r| >= 1
    ensures forall i :: 0 <= i < |r| ==> c !in r[i]
    ensures Join(r, [c]) == s
    decreases |s|
  {
    if |s| == 0 then [""]
    else
      var rest := SplitOn(s[1..], c);
      if s[0] == c then
        assert [""] + rest == [""] + rest;
        assert ([""] + rest)[1..] == rest;
        [""] + rest
      else
        var r := [[s[0]] + rest[0]] + rest[1..];
        assert Join(r, [c]) == s by {
          if |rest| == 1 {
            assert Join(r, [c]) == [s[0]] + rest[0];
          } else {
            assert r[1..] == rest[1..];
            assert Join(rest, [c]) == rest[0] + [c] + Join(rest[1..], [c]);
          }
        }
        r
  }

  /** The position of the first c in s, if any. */
  function IndexOf(s: string, c: char): (r: Option<nat>)
    ensures r.None? <==> c !in s
    ensures r.Some? ==> r.value < |s| && s[r.value] == c && c !in s[..r.value]
  {
    if |s| == 0 then None
    else if s[0] == c then Some(0)
    else
      match IndexOf(s[1..], c)
      case None => None
      case Some(i) =>
        assert s[..i + 1] == [s[0]] + s[1..][..i];
        Some(i + 1)
  }

  /** The position of the last c in s, if any (JavaScript's `lastIndexOf`,
      with -1 written as None). */
  function LastIndexOf(s: string, c: char): (r: Option<nat>)
    ensures r.None? <==> c !in s
    ensures r.Some? ==> r.value < |s| && s[r.value] == c && c !in s[r.value + 1..]
  {
    if |s| == 0 then None
    else if s[|s| - 1] == c then Some(|s| - 1)
    else
      match LastIndexOf(s[..|s| - 1], c)
      case None => None
      case Some(i) =>
        assert s[i + 1..] == s[..|s| - 1][i + 1..] + [s[|s| - 1]];
        Some(i)
  }

  // ---------------------------------------------------------------------
  // Decimal integers
  // ---------------------------------------------------------------------

  function DigitChar(d: nat): char
    requires d < 10
  {
    ('0' as int + d) as char
  }

  /** Decimal digits of n, most significant first, without leading zeros. */
  function NatToStr(n: nat): (r: string)
    ensures |r| > 0
    ensures forall i :: 0 <= i < |r| ==> IsDigit(r[i])
    decreases n
  {
    if n < 10 then [DigitChar(n)] else NatToStr(n / 10) + [DigitChar(n % 10)]
  }

  /** Python's `str(n)` for an int. */
  function IntToStr(n: int): (r: string)
  {
    if n < 0 then "-" + NatToStr(-n) else NatToStr(n)
  }

  /** The value of a string of decimal digits. */
  function DigitsValue(s: string): nat
    requires forall i :: 0 <= i < |s| ==> IsDigit(s[i])
    decreases |s|
  {
    if |s| == 0 then 0
    else
      assert IsDigit(s[|s| - 1]);
      DigitsValue(s[..|s| - 1]) * 10 + (s[|s| - 1] as int - '0' as int)
  }

  /** Reading an integer back from decimal text. */
  function ParseInt(s: string): Option<int>
  {
    if |s| > 0 && s[0] == '-' then
      var t := s[1..];
      if |t| > 0 && forall i :: 0 <= i < |t| ==> IsDigit(t[i]) then Some(0 - DigitsValue(t)) else None
    else if |s| > 0 && forall i :: 0 <= i < |s| ==> IsDigit(s[i]) then Some(DigitsValue(s))
    else None
  }

  lemma {:induction false} NatToStrValue(n: nat)
    ensures DigitsValue(NatToStr(n)) == n
    decreases n
  {
    if n >= 10 {
      var s := NatToStr(n);
      assert s[..|s| - 1] == NatToStr(n / 10);
      NatToStrValue(n / 10);
    }
  }

  lemma ParseDigits(s: string)
    requires |s| > 0 && forall i :: 0 <= i < |s| ==> IsDigit(s[i])
    ensures ParseInt(s) == Some(DigitsValue(s))
  {
    assert IsDigit(s[0]);
  }

  lemma ParseNegative(t: string)
    requires |t| > 0 && forall i :: 0 <= i < |t| ==> IsDigit(t[i])
    ensures ParseInt("-" + t) == Some(0 - DigitsValue(t))
  {
    assert ("-" + t)[1..] == t;
  }

  /** `str(n)` can be read back: the decimal rendering loses nothing. */
  lemma IntToStrRoundTrip(n: int)
    ensures ParseInt(IntToStr(n)) == Some(n)
  {
    if n < 0 {
      ParseNegative(NatToStr(-n));
      NatToStrValue(-n);
    } else {
      ParseDigits(NatToStr(n));
      NatToStrValue(n);
    }
  }

  /** Distinct integers have distinct decimal renderings. */
  lemma IntToStrInjective(a: int, b: int)
    ensures IntToStr(a) == IntToStr(b) <==> a == b
  {
    IntToStrRoundTrip(a);
    IntToStrRoundTrip(b);
  }
}

/** Python's ordering of `str` values: code point by code point, a proper
    prefix before its extensions. */
module StringOrder {

  predicate Less(a: string, b: string)
    decreases |a|
  {
    if |a| == 0 then |b| > 0
    else if |b| == 0 then false
    else if a[0] != b[0] then a[0] < b[0]
    else Less(a[1..], b[1..])
  }


  lemma {:induction false} LessTransitive(a: string, b: string, c: string)
    requires Less(a, b) && Less(b, c)
    ensures Less(a, c)
    decreases |a|
  {
    if |a| > 0 && a[0] == b[0] && b[0] == c[0] {
      LessTransitive(a[1..], b[1..], c[1..]);
    }
  }

  /** Distinct strings are ordered one way or the other. */
  lemma {:induction false} LessTotal(a: string, b: string)
    requires a != b
    ensures Less(a, b) || Less(b, a)
    decreases |a|
  {
    if |a| > 0 && |b| > 0 && a[0] == b[0] {
      assert a == [a[0]] + a[1..] && b == [b[0]] + b[1..];
      LessTotal(a[1..], b[1..]);
    }
  }
}

/** Splitting a join back apart. */
module SplitJoin {
  import opened Text

  lemma {:induction false} SplitOnNoSep(a: string, c: char)
    requires c !in a
    ensures SplitOn(a, c) == [a]
    decreases |a|
  {
    if |a| > 0 {
      SplitOnNoSep(a[1..], c);
      assert [a[0]] + a[1..] == a;
    }
  }

  lemma {:induction false} SplitOnFirstSep(a: string, b: string, c: char)
    requires c !in a
    ensures SplitOn(a + [c] + b, c) == [a] + SplitOn(b, c)
    decreases |a|
  {
    if |a| == 0 {
      assert a + [c] + b == [c] + b;
      assert ([c] + b)[1..] == b;
    } else {
      assert (a + [c] + b)[1..] == a[1..] + [c] + b;
      SplitOnFirstSep(a[1..], b, c);
      assert [a[0]] + a[1..] == a;
    }
  }

  /** Pieces free of the separator come back unchanged from a join and a split. */
  lemma {:induction false} SplitOnJoin(xs: seq<string>, c: char)
    requires |xs| > 0
    requires forall i :: 0 <= i < |xs| ==> c !in xs[i]
    ensures SplitOn(Join(xs, [c]), c) == xs
    decreases |xs|
  {
    if |xs| == 1 {
      SplitOnNoSep(xs[0], c);
    } else {
      SplitOnJoin(xs[1..], c);
      SplitOnFirstSep(xs[0], Join(xs[1..], [c]), c);
      assert [xs[0]] + xs[1..] == xs;
    }
  }
}

=== FILE: utf8.dfy ===
/**
 * UTF-8 as Python's strict `bytes.decode("utf-8")` and `str.encode("utf-8")`
 * apply it: the well-formed byte sequences of RFC 3629 section 4 (no overlong
 * forms, no surrogates, nothing above U+10FFFF).
 */
module Utf8 {
  import opened Basics

  predicate IsContinuation(b: byte) {
    0x80 <= b <= 0xBF
  }

  /** The six payload bits of a continuation byte. */
  function Payload(b: byte): int {
    b as int - 0x80
  }

  /** The one-to-four byte encoding of one scalar value (RFC 3629 section 3):
      the value is cut into six-bit groups from the least significant end. */
  function EncodeChar(c: char): (r: seq<byte>)
    ensures 1 <= |r| <= 4
  {
    var n := c as int;
    if n < 0x80 then [n]
    else if n < 0x800 then [0xC0 + n / 64, 0x80 + n % 64]
    else if n < 0x1_0000 then [0xE0 + n / 64 / 64, 0x80 + n / 64 % 64, 0x80 + n % 64]
    else [0xF0 + n / 64 / 64 / 64, 0x80 + n / 64 / 64 % 64, 0x80 + n / 64 % 64, 0x80 + n % 64]
  }

  /** `s.encode("utf-8")` */
  function Encode(s: string): (r: seq<byte>)
    ensures |s| <= |r| <= 4 * |s|
  {
    if |s| == 0 then [] else EncodeChar(s[0]) + Encode(s[1..])
  }

  /** Decodes the code point at the start of b, returning it with the number
      of bytes it took; None when b does not start with a well-formed
      sequence (Table 3-7 of the Unicode standard). */
  function DecodeFirst(b: seq<byte>): (r: Option<(char, nat)>)
    ensures r.Some? ==> 1 <= r.value.1 <= |b| && r.value.1 <= 4
  {
    if |b| == 0 then None
    else if b[0] < 0x80 then Some((b[0] as char, 1))
    else if 0xC2 <= b[0] <= 0xDF then
      if |b| >= 2 && IsContinuation(b[1]) then
        Some((((b[0] as int - 0xC0) * 64 + Payload(b[1])) as char, 2))
      else None
    else if 0xE0 <= b[0] <= 0xEF then
      var lo := if b[0] == 0xE0 then 0xA0 else 0x80;
      var hi := if b[0] == 0xED then 0x9F else 0xBF;
      if |b| >= 3 && lo <= b[1] <= hi && IsContinuation(b[2]) then
        Some(((((b[0] as int - 0xE0) * 64 + Payload(b[1])) * 64 + Payload(b[2])) as char, 3))
      else None
    else if 0xF0 <= b[0] <= 0xF4 then
      var lo := if b[0] == 0xF0 then 0x90 else 0x80;
      var hi := if b[0] == 0xF4 then 0x8F else 0xBF;
      if |b| >= 4 && lo <= b[1] <= hi && IsContinuation(b[2]) && IsContinuation(b[3]) then
        Some((((((b[0] as int - 0xF0) * 64 + Payload(b[1])) * 64 + Payload(b[2])) * 64 + Payload(b[3])) as char, 4))
      else None
    else None
  }

  /** `b.decode("utf-8")`, with None for the UnicodeDecodeError. */
  function Decode(b: seq<byte>): (r: Option<string>)
    ensures r.Some? ==> |r.value| <= |b|
    decreases |b|
  {
    if |b| == 0 then Some("")
    else
      match DecodeFirst(b)
      case None => None
      case Some((c, k)) =>
        match Decode(b[k..])
        case None => None
        case Some(rest) => Some([c] + rest)
  }

  lemma DecodeEncodeTwo(c: char, b: seq<byte>)
    requires 0x80 <= c as int < 0x800
    requires |b| >= 2 && b[..2] == EncodeChar(c)
    ensures DecodeFirst(b) == Some((c, 2))
  {
    var n := c as int;
    assert b[0] == 0xC0 + n / 64 && b[1] == 0x80 + n % 64;
  }

  lemma DecodeEncodeThree(c: char, b: seq<byte>)
    requires 0x800 <= c as int < 0x1_0000
    requires |b| >= 3 && b[..3] == EncodeChar(c)
    ensures DecodeFirst(b) == Some((c, 3))
  {
    var n := c as int;
    assert b[0] == 0xE0 + n / 64 / 64 && b[1] == 0x80 + n / 64 % 64 && b[2] == 0x80 + n % 64;
  }

  lemma DecodeEncodeFour(c: char, b: seq<byte>)
    requires 0x1_0000 <= c as int
    requires |b| >= 4 && b[..4] == EncodeChar(c)
    ensures DecodeFirst(b) == Some((c, 4))
  {
    var n := c as int;
    assert b[0] == 0xF0 + n / 64 / 64 / 64 && b[1] == 0x80 + n / 64 / 64 % 64;
    assert b[2] == 0x80 + n / 64 % 64 && b[3] == 0x80 + n % 64;
  }

  /** Decoding the encoding of one character gives that character back and
      consumes exactly its bytes, whatever follows. */
  lemma DecodeEncodeChar(c: char, rest: seq<byte>)
    ensures DecodeFirst(EncodeChar(c) + rest) == Some((c, |EncodeChar(c)|))
  {
    var n := c as int;
    var e := EncodeChar(c);
    var b := e + rest;
    assert b[..|e|] == e;
    if n < 0x80 {
    } else if n < 0x800 {
      DecodeEncodeTwo(c, b);
    } else if n < 0x1_0000 {
      DecodeEncodeThree(c, b);
    } else {
      DecodeEncodeFour(c, b);
    }
  }

  /** Round trip: strict decoding inverts encoding. */
  lemma {:induction false} DecodeEncode(s: string)
    ensures Decode(Encode(s)) == Some(s)
    decreases |s|
  {
    if |s| > 0 {
      var e := EncodeChar(s[0]);
      DecodeEncodeChar(s[0], Encode(s[1..]));
      assert (e + Encode(s[1..]))[|e|..] == Encode(s[1..]);
      DecodeEncode(s[1..]);
      assert [s[0]] + s[1..] == s;
    }
  }

  /** The decoder accepts only canonical encodings: whatever it decodes one
      code point from is exactly that code point's encoding. */
  lemma EncodeDecodeFirst(b: seq<byte>)
    requires DecodeFirst(b).Some?
    ensures EncodeChar(DecodeFirst(b).value.0) == b[..DecodeFirst(b).value.1]
  {
    var c := DecodeFirst(b).value.0;
    var n := c as int;
    if b[0] < 0x80 {
    } else if b[0] <= 0xDF {
      assert n == (b[0] as int - 0xC0) * 64 + Payload(b[1]);
    } else if b[0] <= 0xEF {
      assert n == ((b[0] as int - 0xE0) * 64 + Payload(b[1])) * 64 + Payload(b[2]);
      assert n / 64 == (b[0] as int - 0xE0) * 64 + Payload(b[1]);
    } else {
      var m := ((b[0] as int - 0xF0) * 64 + Payload(b[1])) * 64 + Payload(b[2]);
      assert n == m * 64 + Payload(b[3]);
      assert n / 64 == m;
      assert m / 64 == (b[0] as int - 0xF0) * 64 + Payload(b[1]);
    }
  }

  lemma DecodeUnfold(b: seq<byte>)
    requires |b| > 0 && Decode(b).Some?
    ensures DecodeFirst(b).Some?
    ensures Decode(b[DecodeFirst(b).value.1..]).Some?
    ensures Decode(b).value == [DecodeFirst(b).value.0] + Decode(b[DecodeFirst(b).value.1..]).value
  {
  }

  /** Encoding a text that starts with c puts c's bytes first. */
  lemma EncodeCons(c: char, rest: string, b: seq<byte>, k: nat)
    requires k <= |b| && EncodeChar(c) == b[..k] && Encode(rest) == b[k..]
    ensures Encode([c] + rest) == b
  {
    var s := [c] + rest;
    assert s[0] == c && s[1..] == rest;
    assert b == b[..k] + b[k..];
  }

  /** The other round trip: whatever decodes re-encodes to the same bytes, so
      the decoder never accepts two spellings of one text. */
  lemma {:induction false} EncodeDecode(b: seq<byte>)
    requires Decode(b).Some?
    ensures Encode(Decode(b).value) == b
    decreases |b|
  {
    if |b| > 0 {
      DecodeUnfold(b);
      var (c, k) := DecodeFirst(b).value;
      EncodeDecode(b[k..]);
      EncodeDecodeFirst(b);
      EncodeCons(c, Decode(b[k..]).value, b, k);
    }
  }
}

=== FILE: viewer_script.dfy ===
/**
 * Helpers of the page's script: the level a line is coloured with, the
 * file named by the page's URL, and the folder a listed file is shown
 * under.
 */
module ViewerScript {
  import opened Text
  import LogReader

  // ---------------------------------------------------------------------
  // detectLevel
  // ---------------------------------------------------------------------

  /** The levels in the order they are tried. */
  const LevelOrder: seq<string> := ["ERROR", "WARNING", "DEBUG", "INFO"]

  /** The text carries the level as a tag: the name followed by a colon or
      a space. */
  predicate Tagged(text: string, level: string) {
    Contains(text, level + ":") || Contains(text, level + " ")
  }

  /** No level before index k is tagged. */
  predicate NoneBefore(text: string, k: int)
    requires 0 <= k <= |LevelOrder|
  {
    forall j :: 0 <= j < k ==> !Tagged(text, LevelOrder[j])
  }

  /** `detectLevel(text)`: the first level, in priority order, that the
      text is tagged with; "" when there is none. */
  function DetectLevel(text: string): (r: string)
    ensures forall k :: 0 <= k < |LevelOrder| ==>
      (r == LevelOrder[k] <==> Tagged(text, LevelOrder[k]) && NoneBefore(text, k))
    ensures r == "" <==> NoneBefore(text, |LevelOrder|)
  {
    assert forall j, k :: 0 <= j < k < |LevelOrder| ==> LevelOrder[j] != LevelOrder[k];
    assert forall k :: 0 <= k < |LevelOrder| ==> LevelOrder[k] != "";
    assert LevelOrder[0] == "ERROR" && LevelOrder[1] == "WARNING";
    assert LevelOrder[2] == "DEBUG" && LevelOrder[3] == "INFO";
    if Tagged(text, "ERROR") then "ERROR"
    else if Tagged(text, "WARNING") then "WARNING"
    else if Tagged(text, "DEBUG") then "DEBUG"
    else if Tagged(text, "INFO") then "INFO"
    else ""
  }

  /** A line the page colours with a level is one the reader's filter for
      that level keeps. */
  lemma ColouredLinePassesFilter(text: string)
    requires DetectLevel(text) != ""
    ensures LogReader.MatchesLevel(text, DetectLevel(text))
  {
    var l := DetectLevel(text);
    assert Upper(l) == l;
    if Contains(text, l + ":") {
      ContainsLonger(text, l, ":");
    } else {
      ContainsLonger(text, l, " ");
    }
  }

  // ---------------------------------------------------------------------
  // getFileFromURL
  // ---------------------------------------------------------------------

  /** `getFileFromURL()` with the location's path and the page's base URL;
      the result is the path segment left undecoded. */
  function FileFromUrl(path: string, base: string): (r: string)
    ensures r != "" ==> path == TrimSlashes(base) + "/" + r
    ensures !StartsWith(path, TrimSlashes(base) + "/") ==> r == ""
  {
    var b := TrimSlashes(base);
    if path == b || path == b + "/" then ""
    else if StartsWith(path, b + "/") then path[|b| + 1..]
    else ""
  }

  /** The two early returns change nothing: the result is whatever follows
      the base and a slash, or nothing for a path outside the base. */
  lemma FileFromUrlIsRemainder(path: string, base: string)
    ensures FileFromUrl(path, base) ==
      (if StartsWith(path, TrimSlashes(base) + "/") then path[|TrimSlashes(base)| + 1..] else "")
  {
    var b := TrimSlashes(base);
    if path == b + "/" {
      assert path[|b| + 1..] == "";
    }
  }

  /** The page URL built from the base and a file name names that file,
      whatever trailing slashes the base carries. */
  lemma FileFromUrlRoundTrip(base: string, name: string)
    ensures FileFromUrl(TrimSlashes(base) + "/" + name, base) == name
  {
    var b := TrimSlashes(base);
    var path := b + "/" + name;
    assert path[..|b| + 1] == b + "/";
    assert path[|b| + 1..] == name;
  }

  // ---------------------------------------------------------------------
  // Folder of a listed file
  // ---------------------------------------------------------------------

  /** The split in `fetchFiles`: the part of a listed name before its last
      `/` is the folder, the rest the file shown; a name without `/` is in
      the top folder "". */
  function SplitFolder(name: string): (r: (string, string))
    ensures '/' !in r.1
    ensures '/' in name ==> name == r.0 + "/" + r.1
    ensures '/' !in name ==> r == ("", name)
  {
    match LastIndexOf(name, '/')
    case None => ("", name)
    case Some(sep) =>
      assert name == name[..sep] + "/" + name[sep + 1..];
      (name[..sep], name[sep + 1..])
  }

  /** A file in a folder is shown under that folder. */
  lemma SplitFolderJoin(folder: string, file: string)
    requires '/' !in file
    ensures SplitFolder(folder + "/" + file) == (folder, file)
  {
    var name := folder + "/" + file;
    assert name[|folder|] == '/';
    var r := SplitFolder(name);
    assert '/' in name;
    assert r.1 == name[|name| - |r.1|..] == file;
    assert r.0 == name[..|folder|] == folder;
  }
}
